=== FILE: README.md ===
# Cadastre reconciliation: classification engine and deal-status workflow

This project models the core of a service that reconciles cadastral-survey flat areas against
contract areas from a real-estate CRM. It has four parts:

- **Classification** (`Processing`). Each surveyed flat is matched to its deal. The flat gets
  one of six groups from its debt flag and the sign bucket of the area difference. The bucket
  has a strict ±2 tolerance. The per-deal status rows of the classified deals are then reset
  or created.
- **Deal-status state machine** (`StatusMachine`). This is `update_deal_status` over the
  `DealStatus` record (`Models`), with a closed `Action` type. The `Other(name)` case covers
  the action names the function does not handle.
- **Deals listing** (`Routes`). It flattens the groups, computes the 30-day delivery deadline
  (`DataService.Enrich`), filters by group and cuts pages of 20. `Routes` also models which
  status actions each POST route sends.
- **Small helpers**. `Countdown` is the browser countdown: days, hours, minutes and seconds of
  a millisecond difference, and its `"{d}д HH:MM:SS"` text. `Checkerboard` is the layout and
  colour rule of the exported checkerboard sheets.

Everything is a pure function. The current time is a parameter: microseconds for the server,
milliseconds for the browser. Each point where the source can fail or roll back is a boolean
parameter or an `Option`/outcome datatype:

- `commits`: whether a store commit succeeds.
- `ProcessAcceptance(None)`: a payload that is not a mapping.
- `Failed`: a null contract area, on which `float()` raises.

The status table is a `map<int, DealStatus>` keyed by `deal_id`. The CRM lookup is a
`map<PropId, ContractDeal>`.

The code has these behaviours, which a reader may not expect; the model follows them:

- **Bucket vs. stored difference.** The bucket is chosen on the *unrounded* difference. The
  stored `area_diff` is rounded to two places. A difference of 2.001 is stored as 2.0 but
  still counts as an increase (`Processing.RoundedDiffAboveBucket`).
- **Upload order.** The two uploads do not commute when defects are flagged. Signed act then
  defect list completes the deal (`StatusMachine.SignedThenDefectListCompletes`). Defect list
  then signed act never completes it (`StatusMachine.DefectListThenSignedStalls`).
- **Unknown action names.** They are silent successes. The acceptance and defect report routes
  send two such names, `report_act_signed` and `report_defects`, so they change nothing
  (`Routes.ReportRoutesChangeNothing`). No route sends `process_acceptance`.
- **Null contract area.** A matched deal with a null contract area makes the whole
  classification raise (`Processing.ProcessCadastreData` returns `Failed`). It is not skipped.
- **Non-positive page numbers.** They reach Python slicing unchecked. Page 0 is empty. A
  negative page counts from the end of the list (`Routes.NegativePageCountsFromEnd`).

## Model

| member | source | states |
|---|---|---|
| Models.KeyFromName | app/cadastre_process/services/processing_service.py:41-45 | the six group-key strings are read back to exactly the key that prints as them; any other string is no key |
| Models.NewDealStatus | app/cadastre_process/models.py:9-24 | a new row has the given id and group, status `processing`, and all nine workflow columns null |
| Assoc.LastWins | app/cadastre_process/services/processing_service.py:51-54 | a dict built from pairs has exactly the keys of the pairs, and each key maps to the value of its last pair |
| DataService.ToContractDeal | app/cadastre_process/services/data_service.py:61-69 | the deal id and contract area are the row's; the client id is the seller contact id, the name and phone the buyer's; the debt flag is true iff the reserved amount is present and positive; the client type is a legal entity iff the contact type is 1 |
| DataService.DealsData | app/cadastre_process/services/data_service.py:59-70 | the lookup has one entry per flat number the rows contain, built from the last row for that flat |
| DataService.StatusesFor | app/cadastre_process/services/data_service.py:204-212 | exactly the requested deal ids that have a row, each with its stored row; empty for an empty request |
| DataService.Enrich | app/cadastre_process/routes.py:90-98 | a deadline exists iff the deal has a row with a delivery time; it is delivery + 30 days; timed out iff now is strictly after it |
| DataService.EnrichPage | app/cadastre_process/services/data_service.py:119-134 | enriching from the rows fetched for the page equals enriching from the whole table |
| DataService.TimeoutBoundary | app/cadastre_process/services/data_service.py:131-133 | delivered 31 days ago is timed out; 30 and 29 days ago are not |
| StatusMachine.Apply | app/cadastre_process/services/data_service.py:162-194 | each action writes only its own columns (mark_* and *_downloaded stamp `now`; uploads store the path; process_acceptance stores both flags verbatim); the status follows the transition table; only a non-mapping acceptance payload raises |
| StatusMachine.UpdateDealStatus | app/cadastre_process/services/data_service.py:156-201 | a missing row returns False and changes nothing; success iff the row exists, the branch does not raise and the commit goes through, and only that row changes; any failure leaves the table as before; unhandled names succeed without change |
| StatusMachine.ActionNameHandled | app/cadastre_process/services/data_service.py:156-194 | every dedicated action is sent under a name with a branch; a well-formed action has a branch exactly when it is not `Other` |
| StatusMachine.Run | app/cadastre_process/services/data_service.py:156-201 | a sequence of calls never changes the deal id or the group of the row; no calls leave it as it is |
| StatusMachine.ApplyKeepsConsistent | app/cadastre_process/services/data_service.py:162-194 | one action keeps the row invariant: a named status, and `pending_arrival` / `acceptance_pending` only with their timestamps |
| StatusMachine.RunKeepsConsistent | app/cadastre_process/services/data_service.py:162-194 | any sequence of actions keeps that invariant |
| StatusMachine.FreshRowReachesOnlyNamedStatuses | app/cadastre_process/services/processing_service.py:75-79 | from a newly created row, no action sequence reaches a status outside the five named ones |
| StatusMachine.RunCompletesOnlyWithAct | app/cadastre_process/services/data_service.py:181-194 | with real upload paths, a completed row always holds an uploaded unilateral act or signed act |
| StatusMachine.SignedThenDefectListCompletes | app/cadastre_process/services/data_service.py:181-188 | signed act, then defect list, ends `completed` whatever the defect flag |
| StatusMachine.DefectListThenSignedStalls | app/cadastre_process/services/data_service.py:181-188 | with defects flagged and no signed act yet, defect list then signed act leaves the status unchanged |
| StatusMachine.UnilateralScenario | app/cadastre_process/services/data_service.py:173-194 | from `acceptance_pending`, process_acceptance(False, False) gives `unilateral_pending`, and act_uploaded then gives `completed` |
| Processing.BucketOf | app/cadastre_process/services/processing_service.py:39 | increase iff diff > 2, decrease iff diff < -2, no change iff -2 <= diff <= 2 |
| Processing.GroupKeyFor | app/cadastre_process/services/processing_service.py:41-46 | the key map is total and injective: the key determines the debt flag and bucket it came from |
| Processing.KeyMapOnto | app/cadastre_process/services/processing_service.py:41-46 | every group key is the image of its (debt flag, bucket) pair, so the map is a bijection onto the six groups |
| Processing.Round2 | app/cadastre_process/services/processing_service.py:33 | the stored difference lies on the hundredths grid, within 0.005 of the exact difference |
| Processing.ClassifyFlat | app/cadastre_process/services/processing_service.py:22-48 | skipped iff the flat has no deal; raises iff the deal's contract area is null; otherwise the deal id, flat, client fields and group come from the lookup, and the stored difference is `Round2` of the exact difference (within 0.005 of it, on the hundredths grid) |
| Processing.Matched | app/cadastre_process/services/processing_service.py:22-48 | every placed flat has a deal, and every flat that classifies is among the placed ones |
| Processing.MatchedFollowsSurvey | app/cadastre_process/services/processing_service.py:22-48 | the placed flats are exactly the classifications of the surveyed flats that classify, one per flat, in survey order (a strictly increasing index map into the survey that covers every classifying position) |
| Processing.InsertDealsOf | app/cadastre_process/services/processing_service.py:47-48 | appending to group k adds the deal at the end of group k and changes no other group |
| Processing.Group | app/cadastre_process/services/processing_service.py:21-48 | the grouping has distinct keys, no empty group, and exactly the keys of the placed flats |
| Processing.GroupHoldsSelection | app/cadastre_process/services/processing_service.py:21-48 | group k holds exactly the placed flats with key k, in survey order |
| Processing.FlattenMembers | app/cadastre_process/routes.py:81-85 | the flattened list holds a (key, deal) pair iff some group with that key holds the deal |
| Processing.FlattenGroupPermutes | app/cadastre_process/services/processing_service.py:51-54 | flattening the groups gives the placed flats up to order, so each flat is in exactly one group |
| Processing.SelectFlatten | app/cadastre_process/routes.py:81-85 | filtering the flattened list by key k gives back group k in order |
| Processing.ResetRow | app/cadastre_process/services/processing_service.py:62-73 | resetting an existing row in place yields exactly the row a fresh creation would |
| Processing.SyncTargets | app/cadastre_process/services/processing_service.py:51-55 | the sync map has the ids of all classified deals; for a repeated id, the group of its last occurrence in group order wins |
| Processing.Sync | app/cadastre_process/services/processing_service.py:57-87 | a committed sync resets or creates every targeted row as fresh `processing` rows in their new group and leaves other rows untouched; a failed commit leaves the table as it was |
| Processing.SyncIdempotent | app/cadastre_process/services/processing_service.py:60-80 | syncing twice with the same targets is the same as syncing once |
| Processing.ProcessCadastreData | app/cadastre_process/services/processing_service.py:10-87 | empty survey: empty result and an unchanged table, whatever the lookup; raises iff some matched deal has a null contract area; otherwise distinct, non-empty groups and no row removed |
| Processing.ResultGroups | app/cadastre_process/services/processing_service.py:22-48 | each returned group holds the flats placed under its key, in survey order |
| Processing.ClassifiedFlatIsPlaced | app/cadastre_process/services/processing_service.py:46-48 | a surveyed flat with a deal is in the group its debt flag and bucket select |
| Processing.UnmatchedFlatIsSkipped | app/cadastre_process/services/processing_service.py:23-25 | a flat with no deal appears in no group |
| Processing.SyncOutcome | app/cadastre_process/services/processing_service.py:50-87 | the sync targets are exactly the classified deal ids; after a commit each has a fresh `processing` row whose group is the one its last occurrence in group order was placed in; other rows are untouched; a failed commit keeps the table and returns the same grouping |
| Processing.UniqueDealTakesItsGroup | app/cadastre_process/services/processing_service.py:51-79 | a deal placed once lies in the group of its key and, after a commit, has a fresh `processing` row with that group key |
| Processing.ReclassifyIsIdempotent | app/cadastre_process/services/processing_service.py:10-87 | classifying the same survey again yields the same grouping and the same table |
| Processing.IncreaseScenario | app/cadastre_process/services/processing_service.py:27-48 | 55.3 against 53.0 without debt is stored as 2.3 in `5_increase_only` |
| Processing.RoundedDiffAboveBucket | app/cadastre_process/services/processing_service.py:33-39 | a 2.001 difference is stored as 2.0 (a no-change value) yet placed in `5_increase_only` |
| Routes.SliceBound | app/cadastre_process/routes.py:107-109 | a slice bound inside the list is kept, one past the end is clamped, a negative one counts from the end |
| Routes.PySlice | app/cadastre_process/routes.py:109 | a slice holds the consecutive items from the normalised start, as many as the normalised stop lies past it, none otherwise |
| Routes.PageOf | app/cadastre_process/routes.py:106-109 | every page, whatever its number, shows at most 20 deals; page p >= 1 is the window [(p-1)·20, p·20) cut to the list |
| Routes.TotalPages | app/cadastre_process/routes.py:110 | `total_pages` is the least count of 20-deal pages that holds the list, 0 for an empty list |
| Routes.PageWindow | app/cadastre_process/routes.py:106-110 | page p >= 1 is the window [(p-1)·20, p·20) cut to the list, at most 20 deals, empty iff p > total_pages |
| Routes.PageZeroIsEmpty | app/cadastre_process/routes.py:107-109 | page 0 shows nothing |
| Routes.NegativePageCountsFromEnd | app/cadastre_process/routes.py:107-109 | with 45 deals, page -1 shows deals 5 to 24 |
| Routes.PagesArePrefix | app/cadastre_process/routes.py:106-109 | pages 1..k in turn are the first 20·k deals |
| Routes.PagesCoverList | app/cadastre_process/routes.py:106-110 | pages 1..total_pages in turn show the whole filtered list once, in order |
| Routes.DealIds | app/cadastre_process/routes.py:87 | `all_deal_ids` lists each flattened deal's id, position by position |
| Routes.Views | app/cadastre_process/routes.py:81-98 | each listed deal keeps its group and record, and gets the deadline and timeout computed from its own row in the table |
| Routes.KeepGroup | app/cadastre_process/routes.py:100-102 | a non-empty filter keeps exactly the deals whose group key string equals it |
| Routes.FilterByGroup | app/cadastre_process/routes.py:100-104 | an empty filter keeps every view; any other keeps exactly the views whose group key string equals it |
| Routes.Listing | app/cadastre_process/routes.py:81-104 | every listed view is a deal of the grouping under its own key, enriched from its own status row; under a filter, every listed view is in that group |
| Routes.KeepGroupSelects | app/cadastre_process/routes.py:100-104 | filtering by a key's name keeps that key's deals in list order |
| Routes.KeepUnknownGroup | app/cadastre_process/routes.py:100-102 | a filter that names no group keeps nothing |
| Routes.GroupFilterShowsGroup | app/cadastre_process/routes.py:81-104 | the listing filtered by a group shows exactly that group's deals, in survey order |
| Routes.NoFilterShowsAll | app/cadastre_process/routes.py:100-104 | an empty filter shows every flattened deal, in group order |
| Routes.UnknownFilterShowsNothing | app/cadastre_process/routes.py:100-104 | a filter naming no group shows an empty listing |
| Routes.DealsList | app/cadastre_process/routes.py:71-125 | redirect iff there are no results; otherwise at most 20 deals, the requested page's window of the filtered listing, and ceil(total/20) pages |
| Routes.UploadPath | app/cadastre_process/routes.py:256-264 | the stored upload path is never empty, so it always counts as set |
| Routes.RouteActions | app/cadastre_process/routes.py:174-265 | no route sends `process_acceptance`; every `Other` name sent is unhandled; every upload carries a real path; both final files send signed act before defect list |
| Routes.ApplyAll | app/cadastre_process/routes.py:255-265 | one result per call; no row is added or removed and no other deal's row changes; with no row for the deal or failing commits, every call returns False and the table stays as it was |
| Routes.HandleRequest | app/cadastre_process/routes.py:174-265 | a status route returns one result per call it makes and changes only the deal's own row; with no row for the deal or failing commits it changes nothing and every call returns False |
| Routes.ReportRoutesChangeNothing | app/cadastre_process/routes.py:236-247 | the report routes return success iff the row exists and the commit succeeds, and change nothing |
| Routes.UploadBothCompletes | app/cadastre_process/routes.py:250-265 | sending both final files completes an existing deal whatever its defect flag |
| Decimal.NatToString | app/static/js/deals_list.js:77 | the decimal text of a number is non-empty, all digits, with no leading zero |
| Decimal.NatToStringRoundTrip | app/static/js/deals_list.js:77 | reading the decimal text back gives the number |
| Decimal.Pad2 | app/static/js/deals_list.js:77 | `padStart(2, '0')` gives two digits below 100, leaves longer text alone, and keeps the value |
| Countdown.Decompose | app/static/js/deals_list.js:73-76 | hours < 24, minutes < 60, seconds < 60, and d·86400000 + h·3600000 + m·60000 + s·1000 <= diff < that + 1000 |
| Countdown.DecomposeUnique | app/static/js/deals_list.js:73-76 | the decomposition is the only in-range one that accounts for the difference |
| Countdown.Format | app/static/js/deals_list.js:77 | for in-range parts the text is the day digits, `д `, then three two-digit fields separated by `:` |
| Countdown.FormatRoundTrip | app/static/js/deals_list.js:77 | the `"{d}д HH:MM:SS"` text reads back to the parts it shows |
| Countdown.UpdateTimer | app/static/js/deals_list.js:62-78 | an invalid deadline leaves the cell as it is; a negative difference shows the expired text in danger style; zero or more keeps the style and shows exactly the `"{d}д HH:MM:SS"` text of that difference, which reads back to its decomposition |
| Checkerboard.DiffFill | app/cadastre_process/services/export_service.py:103-110 | green iff diff > 0.1, red iff diff < -0.1, default otherwise |
| Checkerboard.FillFor | app/cadastre_process/services/export_service.py:47-49 | the plain sheets never colour a cell; the difference sheet colours every cell by the ±0.1 rule of its difference |
| Checkerboard.MaxApartmentsIsMax | app/cadastre_process/services/export_service.py:84-87 | the header width is the length of the longest floor, 0 without floors |
| Checkerboard.CellLayout | app/cadastre_process/services/export_service.py:102-113 | apartment j of a floor is written at column j + 1 with its own colour |
| Checkerboard.FloorsLayout | app/cadastre_process/services/export_service.py:98-115 | floor i takes row start + i, with its label at column 0 and its apartments after it; no write falls outside the floor rows |
| Checkerboard.HeaderEvent | app/cadastre_process/services/export_service.py:89-95 | the section header sits at column 0 of the section's first row, merged up to the widest floor iff that width is positive |
| Checkerboard.SectionRows | app/cadastre_process/services/export_service.py:82-118 | a section writes its header first, its floors in the next rows, and leaves its last (spacer) row empty |
| Checkerboard.SheetRows | app/cadastre_process/services/export_service.py:80-119 | every write of a sheet lies within the rows the row counter covers |
| Checkerboard.SheetHeightAppend | app/cadastre_process/services/export_service.py:95-118 | each section advances the row counter by its floors plus two |
| Checkerboard.SheetAppend | app/cadastre_process/services/export_service.py:80-119 | a further section is laid out right below the previous ones, starting at the row counter |
| Checkerboard.Workbook | app/cadastre_process/services/export_service.py:122-130 | exactly three sheets: the coloured difference sheet, then the plain file-data and database-data sheets |

## Left out

- HTTP plumbing in routes.py is not modelled: `flash`, `redirect`, `send_file`, JSON response
  codes, file saving and the session. A route is modelled by the status actions it sends, and
  `deals_list` by what it renders.
- The group display names table in `deals_list` is presentation only and is not modelled.
- The Flask session holds the grouping between requests. Its JSON round trip may re-sort the
  group keys. `deals_list` takes the group order it is given.
- The SQL is not modelled. This covers the `WHERE` filtering in `get_deals_data`, and the
  count, `ORDER BY` and `LIMIT/OFFSET` in `get_filtered_deals`. The model starts from the rows
  a query returns.
- `get_complexes_and_houses`, `get_apartments_for_house` and `get_single_deal_details` are
  plain queries. They are left out. Only whether the CRM record was found is kept, as a flag
  on the unilateral-act download request.
- MySQL and SQLite sessions, and `MysqlSession.remove()`, are external stores. A store failure
  is the boolean `commits`. A CRM outage (a failed `get_deals_data`) is not modelled.
- `Routes.HandleRequest`: one `commits` flag covers every call of a request. A request whose
  first call commits and second fails is not represented.
- Excel parsing, the template, the Word acts and the ZIP archive (file_service.py,
  group_1_workflow.py) are not modelled. These are library wrappers, including the
  notification text table.
- xlsxwriter formats, row heights, column widths and the `:.2f` / `:+.2f` cell text are not
  modelled. A cell write records the flat number and the value it shows.
- Processing.Round2: its contract gives the 0.005 bound and the hundredths grid, but not the
  tie rule. Rounding of binary floats is not modelled: the model computes on exact reals.
- Processing.BucketOf, Processing.ClassifyFlat: the area difference is an exact real, while the
  source subtracts binary floats. So 16.1 - 14.1 is exactly 2.0 here (no change), but
  2.0000000000000018 in the source (increase). Likewise 30.2 - 32.2 is exactly -2.0 here (no
  change) but a decrease in the source.
- The payload flags of `process_acceptance` are modelled as optional booleans. JSON values of
  other types are not modelled, nor how the Boolean column would reject them.
- `group_key` is an optional closed key. A stored row with some other group string is not
  representable.
- `datetime.utcnow()` and the browser `Date` are parameters. The model takes the instant the
  browser parses from the deadline text as given. The server writes that text without a UTC
  offset, and the browser reads such text as local time. The resulting shift by the browser's
  UTC offset is not modelled.
- Routes.Views: one instant stands for the whole listing. The source reads the clock again for
  every deal, so deals near the boundary may be judged at slightly different instants.
- DataService.EnrichPage: the same single instant serves every deal of the page, where the
  source reads the clock once per deal.
- StatusMachine.Apply: an `Other` action stands only for names without a branch
  (`WellFormedAction`). A handled name always arrives as its dedicated constructor.
- The DOM, `localStorage`, `setInterval`, `fetch` and the column toggle in deals_list.js are
  left out.
- config.py, app/__init__.py and database_setup.py are configuration and database reset.
  database_setup.py imports models that models.py does not define.
- Two requests racing on the same deal row is storage-level concurrency and is not modelled.

=== FILE: assoc.dfy ===
/** Building a Python dict from a sequence of key/value pairs, where a later pair overwrites an
    earlier one with the same key (a dict comprehension or a loop of `d[k] = v`). */
module Assoc {

  /** `i` is the position of the last pair in `s` whose key is `k`. */
  ghost predicate IsLastFor<K, V>(s: seq<(K, V)>, k: K, i: int) {
    && 0 <= i < |s|
    && s[i].0 == k
    && forall j :: i < j < |s| ==> s[j].0 != k
  }

  /** The keys occurring in `s`. */
  ghost function KeysOf<K, V>(s: seq<(K, V)>): set<K> {
    set i | 0 <= i < |s| :: s[i].0
  }

  lemma KeysOfAppend<K, V>(s: seq<(K, V)>, x: (K, V))
    ensures KeysOf(s + [x]) == KeysOf(s) + {x.0}
  {
    var t := s + [x];
    forall k | k in KeysOf(t) ensures k in KeysOf(s) + {x.0} {
      var i :| 0 <= i < |t| && t[i].0 == k;
      if i < |s| { assert s[i] == t[i]; }
    }
    forall k | k in KeysOf(s) ensures k in KeysOf(t) {
      var i :| 0 <= i < |s| && s[i].0 == k;
      assert t[i] == s[i];
    }
    assert t[|s|] == x;
  }

  function LastWins<K, V>(s: seq<(K, V)>): (m: map<K, V>)
    ensures m.Keys == KeysOf(s)
    ensures forall k :: k in m ==> exists i :: IsLastFor(s, k, i) && m[k] == s[i].1
  {
    if |s| == 0 then map[]
    else
      var init := s[..|s| - 1];
      var last := s[|s| - 1];
      var m0 := LastWins(init);
      var m := m0[last.0 := last.1];
      assert KeysOf(s) == KeysOf(init) + {last.0} by {
        forall k | k in KeysOf(s) ensures k in KeysOf(init) + {last.0} {
          var i :| 0 <= i < |s| && s[i].0 == k;
          if i < |s| - 1 { assert init[i] == s[i]; }
        }
        forall k | k in KeysOf(init) ensures k in KeysOf(s) {
          var i :| 0 <= i < |init| && init[i].0 == k;
          assert s[i] == init[i];
        }
      }
      forall k | k in m ensures exists i :: IsLastFor(s, k, i) && m[k] == s[i].1 {
        if k == last.0 {
          assert IsLastFor(s, k, |s| - 1);
        } else {
          var i :| IsLastFor(init, k, i) && m0[k] == init[i].1;
          assert IsLastFor(s, k, i);
        }
      }
      m
  }
}

=== FILE: checkerboard.dfy ===
/** The checkerboard workbook: each sheet lays out sections (entrances), each as a header row,
    one row per floor and a blank spacer row. Cell writes and merges are modelled as events. */
module Checkerboard {

  /** One flat on a floor: its number and the number the sheet shows for it
      (its area on the plain sheets, its area difference on the difference sheet). */
  datatype Apartment = Apartment(propertyId: string, value: real)
  datatype Floor = Floor(name: string, apartments: seq<Apartment>)
  datatype Section = Section(name: string, floors: seq<Floor>)

  /** The difference sheet colours its cells; the plain sheets do not. */
  datatype Style = Plain | Coloured

  datatype Fill = NoFill | Neutral | Green | Red

  /** What a write puts in a cell. */
  datatype Kind =
    | MergedHeader(lastCol: nat, section: string)
    | Header(section: string)
    | FloorLabel(floor: string)
    | Cell(propertyId: string, value: real, fill: Fill)

  /** One `write` or `merge_range` (a merge is reported at its first cell, with its last column). */
  datatype Event = Event(row: nat, col: nat, kind: Kind)

  /** The colour rule of the difference sheet: strict ±0.1 thresholds. */
  function DiffFill(diff: real): (f: Fill)
    ensures f == Green <==> diff > 0.1
    ensures f == Red <==> diff < -0.1
    ensures f == Neutral <==> -0.1 <= diff <= 0.1
  {
    if diff > 0.1 then Green else if diff < -0.1 then Red else Neutral
  }

  function FillFor(style: Style, value: real): (f: Fill)
    ensures style == Plain <==> f == NoFill
    ensures style == Coloured ==> f == DiffFill(value)
  {
    if style == Plain then NoFill else DiffFill(value)
  }

  /** The widest floor of a section (0 for a section without floors). */
  function MaxApartments(floors: seq<Floor>): nat {
    if |floors| == 0 then 0
    else
      var rest := MaxApartments(floors[1..]);
      if |floors[0].apartments| >= rest then |floors[0].apartments| else rest
  }

  /** `MaxApartments` is the length of the longest floor. */
  lemma {:induction false} MaxApartmentsIsMax(floors: seq<Floor>)
    ensures forall i :: 0 <= i < |floors| ==> |floors[i].apartments| <= MaxApartments(floors)
    ensures |floors| == 0 ==> MaxApartments(floors) == 0
    ensures |floors| > 0 ==> exists i :: 0 <= i < |floors| && |floors[i].apartments| == MaxApartments(floors)
    decreases |floors|
  {
    if |floors| > 0 {
      var rest := MaxApartments(floors[1..]);
      MaxApartmentsIsMax(floors[1..]);
      assert forall i :: 1 <= i < |floors| ==> floors[i] == floors[1..][i - 1];
      if |floors[0].apartments| < rest {
        var i :| 0 <= i < |floors[1..]| && |floors[1..][i].apartments| == rest;
        assert floors[i + 1] == floors[1..][i];
      }
    }
  }

  /** The apartments of a floor, left to right from column `col`. */
  function CellEvents(apts: seq<Apartment>, row: nat, col: nat, style: Style): seq<Event> {
    if |apts| == 0 then []
    else [Event(row, col, Cell(apts[0].propertyId, apts[0].value, FillFor(style, apts[0].value)))]
         + CellEvents(apts[1..], row, col + 1, style)
  }

  /** Apartment `j` of the list is written at column `col + j`, with its colour. */
  lemma {:induction false} CellLayout(apts: seq<Apartment>, row: nat, col: nat, style: Style)
    ensures |CellEvents(apts, row, col, style)| == |apts|
    ensures forall j :: 0 <= j < |apts| ==>
      CellEvents(apts, row, col, style)[j] == Event(row, col + j, Cell(apts[j].propertyId, apts[j].value, FillFor(style, apts[j].value)))
    decreases |apts|
  {
    if |apts| > 0 {
      CellLayout(apts[1..], row, col + 1, style);
      var r := CellEvents(apts, row, col, style);
      forall j | 0 < j < |apts|
        ensures r[j] == Event(row, col + j, Cell(apts[j].propertyId, apts[j].value, FillFor(style, apts[j].value)))
      {
        assert r[j] == CellEvents(apts[1..], row, col + 1, style)[j - 1];
        assert apts[1..][j - 1] == apts[j];
      }
    }
  }

  /** One floor row: its label at column 0, then its apartments from column 1. */
  function FloorEvents(f: Floor, row: nat, style: Style): seq<Event> {
    [Event(row, 0, FloorLabel(f.name))] + CellEvents(f.apartments, row, 1, style)
  }

  /** The floor rows of a section, one row each, starting at `row`. */
  function FloorsEvents(floors: seq<Floor>, row: nat, style: Style): seq<Event> {
    if |floors| == 0 then [] else FloorEvents(floors[0], row, style) + FloorsEvents(floors[1..], row + 1, style)
  }

  /** Floor `i` takes row `row + i`: its label at column 0 and its apartment `j` at column
      `j + 1`, coloured by the style; nothing is written outside those rows. */
  lemma {:induction false} FloorsLayout(floors: seq<Floor>, row: nat, style: Style)
    ensures forall e :: e in FloorsEvents(floors, row, style) ==> row <= e.row < row + |floors|
    ensures forall i :: 0 <= i < |floors| ==> Event(row + i, 0, FloorLabel(floors[i].name)) in FloorsEvents(floors, row, style)
    ensures forall i, j :: 0 <= i < |floors| && 0 <= j < |floors[i].apartments| ==>
      var a := floors[i].apartments[j];
      Event(row + i, j + 1, Cell(a.propertyId, a.value, FillFor(style, a.value))) in FloorsEvents(floors, row, style)
    decreases |floors|
  {
    if |floors| > 0 {
      var head := FloorEvents(floors[0], row, style);
      var rest := FloorsEvents(floors[1..], row + 1, style);
      FloorsLayout(floors[1..], row + 1, style);
      CellLayout(floors[0].apartments, row, 1, style);
      assert forall i :: 1 <= i < |floors| ==> floors[i] == floors[1..][i - 1];
      forall i, j | 0 <= i < |floors| && 0 <= j < |floors[i].apartments|
        ensures var a := floors[i].apartments[j];
          Event(row + i, j + 1, Cell(a.propertyId, a.value, FillFor(style, a.value))) in head + rest
      {
        if i == 0 {
          CellLayout(floors[0].apartments, row, 1, style);
          assert head[j + 1] == CellEvents(floors[0].apartments, row, 1, style)[j];
        }
      }
    }
  }

  /** The section header: merged across columns 0..max when some floor has apartments,
      a single cell at column 0 otherwise. */
  function HeaderEvent(s: Section, row: nat): (e: Event)
    ensures e.row == row && e.col == 0
    ensures e.kind.MergedHeader? <==> MaxApartments(s.floors) > 0
    ensures e.kind.MergedHeader? ==> e.kind.lastCol == MaxApartments(s.floors)
  {
    var m := MaxApartments(s.floors);
    if m > 0 then Event(row, 0, MergedHeader(m, s.name)) else Event(row, 0, Header(s.name))
  }

  /** The rows a section takes: header, floors, spacer. */
  function SectionHeight(s: Section): nat {
    |s.floors| + 2
  }

  /** A section laid out from `row`: the header, then the floor rows. */
  function SectionEvents(s: Section, row: nat, style: Style): seq<Event> {
    [HeaderEvent(s, row)] + FloorsEvents(s.floors, row + 1, style)
  }

  /** A section writes its header in its first row, its floors in the rows below, and leaves
      its last row (the spacer) empty. */
  lemma SectionRows(s: Section, row: nat, style: Style)
    ensures SectionEvents(s, row, style)[0] == HeaderEvent(s, row)
    ensures forall e :: e in SectionEvents(s, row, style)[1..] ==> row + 1 <= e.row < row + 1 + |s.floors|
    ensures forall e :: e in SectionEvents(s, row, style) ==> row <= e.row < row + SectionHeight(s) - 1
  {
    assert SectionEvents(s, row, style)[1..] == FloorsEvents(s.floors, row + 1, style);
    FloorsLayout(s.floors, row + 1, style);
  }

  /** The rows the sections take together: the final value of the sheet's row counter. */
  function SheetHeight(sections: seq<Section>): nat {
    if |sections| == 0 then 0 else SectionHeight(sections[0]) + SheetHeight(sections[1..])
  }

  /** The sections one after the other, from `row`. */
  function SheetEvents(sections: seq<Section>, row: nat, style: Style): seq<Event> {
    if |sections| == 0 then []
    else SectionEvents(sections[0], row, style) + SheetEvents(sections[1..], row + SectionHeight(sections[0]), style)
  }

  /** Every write of a sheet falls in the rows the row counter covers. */
  lemma {:induction false} SheetRows(sections: seq<Section>, row: nat, style: Style)
    ensures forall e :: e in SheetEvents(sections, row, style) ==> row <= e.row < row + SheetHeight(sections)
    decreases |sections|
  {
    if |sections| > 0 {
      SectionRows(sections[0], row, style);
      SheetRows(sections[1..], row + SectionHeight(sections[0]), style);
    }
  }

  lemma {:induction false} SheetHeightAppend(sections: seq<Section>, s: Section)
    ensures SheetHeight(sections + [s]) == SheetHeight(sections) + |s.floors| + 2
    decreases |sections|
  {
    if |sections| == 0 {
      assert [s][1..] == [];
    } else {
      assert (sections + [s])[1..] == sections[1..] + [s];
      SheetHeightAppend(sections[1..], s);
    }
  }

  /** Adding a section puts it right below the previous ones: the row counter advances by
      the section's floors plus two. */
  lemma {:induction false} SheetAppend(sections: seq<Section>, s: Section, row: nat, style: Style)
    ensures SheetEvents(sections + [s], row, style) == SheetEvents(sections, row, style) + SectionEvents(s, row + SheetHeight(sections), style)
    decreases |sections|
  {
    var all := sections + [s];
    if |sections| == 0 {
      assert SheetEvents(all, row, style) == SectionEvents(s, row, style) by {
        assert all[1..] == [];
      }
    } else {
      var next := row + SectionHeight(sections[0]);
      var head := SectionEvents(sections[0], row, style);
      assert SheetEvents(all, row, style) == head + SheetEvents(sections[1..] + [s], next, style) by {
        assert all[0] == sections[0];
        assert all[1..] == sections[1..] + [s];
      }
      SheetAppend(sections[1..], s, next, style);
      assert SheetHeight(sections) == SectionHeight(sections[0]) + SheetHeight(sections[1..]);
    }
  }

  datatype Sheet = Sheet(name: string, events: seq<Event>)

  /** `generate_checkerboard_excel`: the coloured difference sheet, then the plain sheets of the
      file data and the database data. */
  function Workbook(diffData: seq<Section>, fileData: seq<Section>, dbData: seq<Section>): (w: seq<Sheet>)
    ensures |w| == 3
    ensures w[0].events == SheetEvents(diffData, 0, Coloured)
    ensures w[1].events == SheetEvents(fileData, 0, Plain)
    ensures w[2].events == SheetEvents(dbData, 0, Plain)
  {
    [ Sheet("1. Расхождения", SheetEvents(diffData, 0, Coloured)),
      Sheet("2. Данные из файла", SheetEvents(fileData, 0, Plain)),
      Sheet("3. Данные из БД", SheetEvents(dbData, 0, Plain)) ]
  }
}

=== FILE: countdown.dfy ===
/** The countdown the deals page shows next to each delivery deadline (`updateTimers`). */
module Countdown {
  import opened Wrappers
  import opened Decimal

  const MsPerSecond: nat := 1000
  const MsPerMinute: nat := 60 * MsPerSecond
  const MsPerHour: nat := 60 * MsPerMinute
  const MsPerDay: nat := 24 * MsPerHour

  /** The text shown once the deadline has passed. */
  const ExpiredText: string := "Время вышло"

  /** A remaining time split into calendar units. */
  datatype Parts = Parts(days: nat, hours: nat, minutes: nat, seconds: nat)

  function Millis(c: Parts): nat {
    c.days * MsPerDay + c.hours * MsPerHour + c.minutes * MsPerMinute + c.seconds * MsPerSecond
  }

  predicate InRange(c: Parts) {
    c.hours < 24 && c.minutes < 60 && c.seconds < 60
  }

  /** `x % m == r` whenever `x = q·m + r` with `0 <= r < m`, for the unit sizes above. */
  lemma DivModUnique(x: int, m: int, q: int, r: int)
    requires m == MsPerSecond || m == MsPerMinute || m == MsPerHour || m == MsPerDay
    requires x == q * m + r && 0 <= r < m
    ensures x / m == q && x % m == r
  {
    if m == MsPerSecond {
      assert x == q * 1000 + r;
    } else if m == MsPerMinute {
      assert x == q * 60000 + r;
    } else if m == MsPerHour {
      assert x == q * 3600000 + r;
    } else {
      assert x == q * 86400000 + r;
    }
  }

  /** The decomposition of a non-negative millisecond difference: whole days, then the hours,
      minutes and seconds of what is left; it accounts for the difference to within one second. */
  function Decompose(diff: nat): (c: Parts)
    ensures InRange(c)
    ensures Millis(c) <= diff < Millis(c) + MsPerSecond
  {
    var days := diff / MsPerDay;
    var hours := (diff % MsPerDay) / MsPerHour;
    var minutes := (diff % MsPerHour) / MsPerMinute;
    var seconds := (diff % MsPerMinute) / MsPerSecond;
    var dayRest := diff % MsPerDay;
    assert diff == days * MsPerDay + dayRest;
    assert dayRest == hours * MsPerHour + dayRest % MsPerHour;
    DivModUnique(diff, MsPerHour, days * 24 + hours, dayRest % MsPerHour);
    var hourRest := diff % MsPerHour;
    assert hourRest == minutes * MsPerMinute + hourRest % MsPerMinute;
    DivModUnique(diff, MsPerMinute, (days * 24 + hours) * 60 + minutes, hourRest % MsPerMinute);
    var minuteRest := diff % MsPerMinute;
    assert minuteRest == seconds * MsPerSecond + minuteRest % MsPerSecond;
    Parts(days, hours, minutes, seconds)
  }

  /** The decomposition is the only one within range that accounts for the difference. */
  lemma DecomposeUnique(diff: nat, c: Parts)
    requires InRange(c)
    requires Millis(c) <= diff < Millis(c) + MsPerSecond
    ensures c == Decompose(diff)
  {
    var rest := diff - Millis(c);
    DivModUnique(diff, MsPerDay, c.days, c.hours * MsPerHour + c.minutes * MsPerMinute + c.seconds * MsPerSecond + rest);
    DivModUnique(diff % MsPerDay, MsPerHour, c.hours, c.minutes * MsPerMinute + c.seconds * MsPerSecond + rest);
    DivModUnique(diff, MsPerHour, c.days * 24 + c.hours, c.minutes * MsPerMinute + c.seconds * MsPerSecond + rest);
    DivModUnique(diff % MsPerHour, MsPerMinute, c.minutes, c.seconds * MsPerSecond + rest);
    DivModUnique(diff, MsPerMinute, (c.days * 24 + c.hours) * 60 + c.minutes, c.seconds * MsPerSecond + rest);
    DivModUnique(diff % MsPerMinute, MsPerSecond, c.seconds, rest);
  }

  /** `${days}д ${HH}:${MM}:${SS}`. */
  function Format(c: Parts): (r: string)
    ensures var n := |NatToString(c.days)|;
      InRange(c) ==>
        && |r| == n + 10
        && AllDigits(r[..n]) && r[n] == 'д' && r[n + 1] == ' '
        && AllDigits(r[n + 2..n + 4]) && r[n + 4] == ':'
        && AllDigits(r[n + 5..n + 7]) && r[n + 7] == ':'
        && AllDigits(r[n + 8..])
  {
    NatToString(c.days) + "д " + Pad2(c.hours) + ":" + Pad2(c.minutes) + ":" + Pad2(c.seconds)
  }

  /** Reads a countdown text back: the day count before "д ", then three two-digit fields. */
  function ParseCountdown(s: string): Option<Parts> {
    if |s| < 11 then None
    else
      var n := |s|;
      var days := s[..n - 10];
      var hh := s[n - 8..n - 6];
      var mm := s[n - 5..n - 3];
      var ss := s[n - 2..];
      if s[n - 10..n - 8] == "д " && s[n - 6] == ':' && s[n - 3] == ':'
         && AllDigits(days) && AllDigits(hh) && AllDigits(mm) && AllDigits(ss)
      then Some(Parts(DigitsValue(days), DigitsValue(hh), DigitsValue(mm), DigitsValue(ss)))
      else None
  }

  /** The countdown text can be read back into the parts it shows. */
  lemma FormatRoundTrip(c: Parts)
    requires InRange(c)
    ensures ParseCountdown(Format(c)) == Some(c)
  {
    var d := NatToString(c.days);
    var s := Format(c);
    var n := |s|;
    assert n == |d| + 10;
    assert s[..n - 10] == d;
    assert s[n - 10..n - 8] == "д ";
    assert s[n - 8..n - 6] == Pad2(c.hours);
    assert s[n - 5..n - 3] == Pad2(c.minutes);
    assert s[n - 2..] == Pad2(c.seconds);
    NatToStringRoundTrip(c.days);
  }

  /** A countdown cell: its text and whether it carries the danger style. */
  datatype Span = Span(text: string, danger: bool)

  /** One tick of `updateTimers` for one cell. `deadline` is `None` when the cell's deadline does
      not parse as a date; times are in milliseconds. */
  function UpdateTimer(span: Span, deadline: Option<int>, now: int): (r: Span)
    ensures deadline.None? ==> r == span
    ensures deadline.Some? && deadline.value - now < 0 ==> r == Span(ExpiredText, true)
    ensures deadline.Some? && deadline.value - now >= 0 ==>
      && r == span.(text := Format(Decompose(deadline.value - now)))
      && ParseCountdown(r.text) == Some(Decompose(deadline.value - now))
  {
    if deadline.None? then span
    else
      var diff := deadline.value - now;
      if diff < 0 then Span(ExpiredText, true)
      else
        FormatRoundTrip(Decompose(diff));
        span.(text := Format(Decompose(diff)))
  }
}

=== FILE: data_service.dfy ===
/** The read side of the data service: the CRM row -> deal record mapping, the status lookup,
    and the 30-day delivery deadline computed at read time. */
module DataService {
  import opened Wrappers
  import opened Models
  import Assoc

  /** One row returned by the deals query of `get_deals_data` (already filtered by house,
      active deal status and the `flat` category). Columns from the left-joined contacts table
      and the nullable deal columns are optional. */
  datatype DealRow = DealRow(
    dealId: int,
    geoFlatnum: PropId,
    dealArea: Option<real>,
    sellerContactsId: Option<int>,
    incomeReserved: Option<real>,
    buyName: Option<string>,
    buyPhones: Option<string>,
    buyType: Option<int>)

  datatype ClientType = LegalEntity | Individual

  /** The deal record the classification consumes. `contractArea` stays nullable: the
      classification converts it with `float()`, which fails on a null. */
  datatype ContractDeal = ContractDeal(
    dealId: int,
    contractArea: Option<real>,
    clientId: Option<int>,
    hasDebt: bool,
    clientName: Option<string>,
    clientPhone: Option<string>,
    clientType: ClientType)

  /** `bool(finances_income_reserved > 0)`: SQL yields NULL for a NULL amount, and `bool(None)` is false. */
  predicate HasDebt(r: DealRow) {
    r.incomeReserved.Some? && r.incomeReserved.value > 0.0
  }

  function ToContractDeal(r: DealRow): (d: ContractDeal)
    ensures d.dealId == r.dealId && d.contractArea == r.dealArea
    ensures d.hasDebt <==> r.incomeReserved.Some? && r.incomeReserved.value > 0.0
    ensures d.clientType == LegalEntity <==> r.buyType == Some(1)
    ensures d.clientId == r.sellerContactsId && d.clientName == r.buyName && d.clientPhone == r.buyPhones
  {
    ContractDeal(
      r.dealId, r.dealArea, r.sellerContactsId, HasDebt(r), r.buyName, r.buyPhones,
      if r.buyType == Some(1) then LegalEntity else Individual)
  }

  /** Row `i` is the last row of `rows` for flat `p`. */
  ghost predicate IsLastRowFor(rows: seq<DealRow>, p: PropId, i: int) {
    && 0 <= i < |rows|
    && rows[i].geoFlatnum == p
    && forall j :: i < j < |rows| ==> rows[j].geoFlatnum != p
  }

  /** The lookup `get_deals_data` builds: keyed by flat number; when two rows share a flat
      number, the later row wins. */
  function DealsData(rows: seq<DealRow>): (m: map<PropId, ContractDeal>)
    ensures forall p :: p in m <==> exists i :: 0 <= i < |rows| && rows[i].geoFlatnum == p
    ensures forall p :: p in m ==> exists i :: IsLastRowFor(rows, p, i) && m[p] == ToContractDeal(rows[i])
  {
    var pairs := seq(|rows|, i requires 0 <= i < |rows| => (rows[i].geoFlatnum, ToContractDeal(rows[i])));
    var m := Assoc.LastWins(pairs);
    forall p ensures p in m <==> exists i :: 0 <= i < |rows| && rows[i].geoFlatnum == p {
      if p in m {
        var i :| 0 <= i < |pairs| && pairs[i].0 == p;
        assert rows[i].geoFlatnum == p;
      }
      if exists i :: 0 <= i < |rows| && rows[i].geoFlatnum == p {
        var i :| 0 <= i < |rows| && rows[i].geoFlatnum == p;
        assert pairs[i].0 == p;
      }
    }
    forall p | p in m ensures exists i :: IsLastRowFor(rows, p, i) && m[p] == ToContractDeal(rows[i]) {
      var i :| Assoc.IsLastFor(pairs, p, i) && m[p] == pairs[i].1;
      forall j | i < j < |rows| ensures rows[j].geoFlatnum != p {
        assert pairs[j].0 == rows[j].geoFlatnum;
      }
      assert IsLastRowFor(rows, p, i);
    }
    m
  }

  /** `get_statuses_for_deals`: the status rows of the requested deals that exist. */
  function StatusesFor(store: Store, ids: seq<int>): (m: map<int, DealStatus>)
    ensures |ids| == 0 ==> m == map[]
    ensures forall id :: id in m <==> id in store && id in ids
    ensures forall id :: id in m ==> m[id] == store[id]
  {
    if |ids| == 0 then map[] else map id | id in store && id in ids :: store[id]
  }

  /** `timedelta(days=30)` in microseconds. */
  const DeliveryWindow: int := 30 * 24 * 60 * 60 * 1000000

  /** What the listing adds to each deal: its status row, whether it is overdue, and its deadline. */
  datatype Enrichment = Enrichment(status: Option<DealStatus>, timedOut: bool, deadline: Option<Instant>)

  /** The deadline and timeout of one deal, from the status rows at hand and the current time. */
  function Enrich(statuses: map<int, DealStatus>, dealId: int, now: Instant): (e: Enrichment)
    ensures e.status == (if dealId in statuses then Some(statuses[dealId]) else None)
    ensures e.deadline.Some? <==> dealId in statuses && statuses[dealId].documentsDeliveredAt.Some?
    ensures e.deadline.Some? ==> e.deadline.value == statuses[dealId].documentsDeliveredAt.value + DeliveryWindow
    ensures e.timedOut <==> e.deadline.Some? && now > e.deadline.value
  {
    if dealId in statuses && statuses[dealId].documentsDeliveredAt.Some? then
      var deadline := statuses[dealId].documentsDeliveredAt.value + DeliveryWindow;
      Enrichment(Some(statuses[dealId]), now > deadline, Some(deadline))
    else
      Enrichment(if dealId in statuses then Some(statuses[dealId]) else None, false, None)
  }

  /** Step 2 and 3 of `get_filtered_deals`: the page's deal ids, enriched from the status rows
      fetched for exactly those ids. */
  function EnrichPage(dealIds: seq<int>, store: Store, now: Instant): (r: seq<Enrichment>)
    ensures |r| == |dealIds|
    ensures forall i :: 0 <= i < |r| ==> r[i] == Enrich(store, dealIds[i], now)
  {
    var statuses := StatusesFor(store, dealIds);
    seq(|dealIds|, i requires 0 <= i < |dealIds| => Enrich(statuses, dealIds[i], now))
  }

  /** The deadline boundary is strict: a delivery 30 days ago is not yet overdue, 31 days ago is,
      29 days ago is not. */
  lemma TimeoutBoundary(s: DealStatus, now: Instant)
    requires s.documentsDeliveredAt.Some?
    ensures var day := DeliveryWindow / 30;
      && (s.documentsDeliveredAt.value == now - 31 * day ==> Enrich(map[s.dealId := s], s.dealId, now).timedOut)
      && (s.documentsDeliveredAt.value == now - 30 * day ==> !Enrich(map[s.dealId := s], s.dealId, now).timedOut)
      && (s.documentsDeliveredAt.value == now - 29 * day ==> !Enrich(map[s.dealId := s], s.dealId, now).timedOut)
  {
  }
}

=== FILE: decimal.dfy ===
/** Decimal rendering of natural numbers, as `str(n)`, `n.toString()` and `padStart(2, '0')` produce it. */
module Decimal {

  predicate IsDigit(c: char) {
    '0' <= c <= '9'
  }

  predicate AllDigits(s: string) {
    forall i :: 0 <= i < |s| ==> IsDigit(s[i])
  }

  function DigitChar(d: nat): (c: char)
    requires d < 10
    ensures IsDigit(c)
    ensures (c as int) - ('0' as int) == d
  {
    (('0' as int) + d) as char
  }

  /** The shortest decimal representation of `n`, without sign or leading zeros. */
  function NatToString(n: nat): (s: string)
    ensures 1 <= |s|
    ensures AllDigits(s)
    ensures n >= 10 ==> s[0] != '0'
    decreases n
  {
    if n < 10 then [DigitChar(n)] else NatToString(n / 10) + [DigitChar(n % 10)]
  }

  /** The number a string of decimal digits denotes (the empty string denotes 0). */
  function DigitsValue(s: string): nat
    requires AllDigits(s)
  {
    if |s| == 0 then 0 else 10 * DigitsValue(s[..|s| - 1]) + ((s[|s| - 1] as int) - ('0' as int))
  }

  /** Reading back the decimal rendering gives the number. */
  lemma {:induction false} NatToStringRoundTrip(n: nat)
    ensures DigitsValue(NatToString(n)) == n
    decreases n
  {
    if n >= 10 {
      var s := NatToString(n);
      var prefix := NatToString(n / 10);
      assert s[..|s| - 1] == prefix;
      NatToStringRoundTrip(n / 10);
    }
  }

  /** Two-character zero padding, as JavaScript's `n.toString().padStart(2, '0')`:
      numbers below 10 get one leading '0', longer renderings are left as they are. */
  function Pad2(n: nat): (s: string)
    ensures AllDigits(s)
    ensures n < 100 ==> |s| == 2
    ensures n >= 10 ==> s == NatToString(n)
    ensures DigitsValue(s) == n
  {
    NatToStringRoundTrip(n);
    if n < 10 then
      var s := "0" + NatToString(n);
      assert s[..|s| - 1] == "0";
      s
    else NatToString(n)
  }
}

=== FILE: models.dfy ===
/** The persistent `DealStatus` record and the closed vocabularies around it. */
module Models {
  import opened Wrappers

  /** A flat number as the survey and the CRM spell it. */
  type PropId = string

  /** A UTC timestamp in microseconds (the resolution of Python's `datetime`). */
  type Instant = int

  /** The six classification groups, in the order of their numeric prefixes. */
  datatype GroupKey =
    | NoIssues
    | DebtOnly
    | DebtAndIncrease
    | DebtAndDecrease
    | IncreaseOnly
    | DecreaseOnly

  /** The string a group key is stored and compared as. */
  function KeyName(k: GroupKey): string {
    match k
    case NoIssues => "1_no_issues"
    case DebtOnly => "2_debt_only"
    case DebtAndIncrease => "3_debt_and_increase"
    case DebtAndDecrease => "4_debt_and_decrease"
    case IncreaseOnly => "5_increase_only"
    case DecreaseOnly => "6_decrease_only"
  }

  /** Reads a group-key string back; `None` for any string that is not one of the six names. */
  function KeyFromName(s: string): (r: Option<GroupKey>)
    ensures r.Some? ==> KeyName(r.value) == s
    ensures forall k :: KeyName(k) == s ==> r == Some(k)
  {
    if s == "1_no_issues" then Some(NoIssues)
    else if s == "2_debt_only" then Some(DebtOnly)
    else if s == "3_debt_and_increase" then Some(DebtAndIncrease)
    else if s == "4_debt_and_decrease" then Some(DebtAndDecrease)
    else if s == "5_increase_only" then Some(IncreaseOnly)
    else if s == "6_decrease_only" then Some(DecreaseOnly)
    else None
  }

  /** The `status` column. The five named values are the only ones the code writes;
      `Legacy` stands for any other string already in the table, passed through untouched. */
  datatype Status =
    | Processing
    | PendingArrival
    | AcceptancePending
    | UnilateralPending
    | Completed
    | Legacy(name: string)

  /** One row of `deal_statuses`. Every column but `deal_id` and `status` is nullable. */
  datatype DealStatus = DealStatus(
    dealId: int,
    groupKey: Option<GroupKey>,
    status: Status,
    documentsDeliveredAt: Option<Instant>,
    clientArrivedAt: Option<Instant>,
    unilateralActDownloadedAt: Option<Instant>,
    unilateralActUploadedPath: Option<string>,
    acceptanceActDownloadedAt: Option<Instant>,
    isActSigned: Option<bool>,
    hasDefectList: Option<bool>,
    signedActUploadedPath: Option<string>,
    defectListUploadedPath: Option<string>)

  /** The nine workflow columns are all null. */
  predicate WorkflowCleared(s: DealStatus) {
    && s.documentsDeliveredAt.None?
    && s.clientArrivedAt.None?
    && s.unilateralActDownloadedAt.None?
    && s.unilateralActUploadedPath.None?
    && s.acceptanceActDownloadedAt.None?
    && s.isActSigned.None?
    && s.hasDefectList.None?
    && s.signedActUploadedPath.None?
    && s.defectListUploadedPath.None?
  }

  /** A row as the constructor `DealStatus(deal_id=…, group_key=…, status='processing')` creates it:
      every column not given takes its default (null). */
  function NewDealStatus(dealId: int, groupKey: Option<GroupKey>): (r: DealStatus)
    ensures r.dealId == dealId && r.groupKey == groupKey
    ensures r.status == Processing
    ensures WorkflowCleared(r)
  {
    DealStatus(dealId, groupKey, Processing, None, None, None, None, None, None, None, None, None)
  }

  /** The status table: rows addressed by their primary key. */
  type Store = map<int, DealStatus>

  /** `deal_id` is the primary key: the row stored under an id carries that id. */
  ghost predicate WellKeyed(store: Store) {
    forall id :: id in store ==> store[id].dealId == id
  }
}

=== FILE: processing.dfy ===
/** `process_cadastre_data`: classify surveyed flats against their deals, group them, and
    re-synchronise the status rows of the classified deals. */
module Processing {
  import opened Wrappers
  import opened Models
  import opened DataService
  import Assoc

  /** The sign bucket of an area difference. */
  datatype Bucket = Increase | Decrease | NoChange

  /** The ±2 tolerance, with strict comparisons: exactly ±2 is no change. */
  function BucketOf(diff: real): (b: Bucket)
    ensures b == Increase <==> diff > 2.0
    ensures b == Decrease <==> diff < -2.0
    ensures b == NoChange <==> -2.0 <= diff <= 2.0
  {
    if diff > 2.0 then Increase else if diff < -2.0 then Decrease else NoChange
  }

  /** Reads a group key back as the (debt flag, bucket) pair it stands for. */
  function KeyParts(k: GroupKey): (bool, Bucket) {
    match k
    case NoIssues => (false, NoChange)
    case DebtOnly => (true, NoChange)
    case DebtAndIncrease => (true, Increase)
    case DebtAndDecrease => (true, Decrease)
    case IncreaseOnly => (false, Increase)
    case DecreaseOnly => (false, Decrease)
  }

  /** The key map: one group for each of the six (debt flag, bucket) pairs. */
  function GroupKeyFor(hasDebt: bool, b: Bucket): (k: GroupKey)
    ensures KeyParts(k) == (hasDebt, b)
  {
    match (hasDebt, b)
    case (false, NoChange) => NoIssues
    case (true, NoChange) => DebtOnly
    case (false, Increase) => IncreaseOnly
    case (true, Increase) => DebtAndIncrease
    case (false, Decrease) => DecreaseOnly
    case (true, Decrease) => DebtAndDecrease
  }

  /** Every group key is the image of exactly one pair, so the map is a bijection. */
  lemma KeyMapOnto(k: GroupKey)
    ensures GroupKeyFor(KeyParts(k).0, KeyParts(k).1) == k
  {
  }

  /** `round(x, 2)` over exact reals: to the nearest hundredth, ties to the even hundredth. */
  function Round2(x: real): (r: real)
    ensures -0.005 <= r - x <= 0.005
    ensures (r * 100.0).Floor as real == r * 100.0
  {
    var y := x * 100.0;
    var f := y.Floor;
    var frac := y - f as real;
    var n := if frac < 0.5 then f else if frac > 0.5 then f + 1 else if f % 2 == 0 then f else f + 1;
    assert -0.5 <= n as real - y <= 0.5;
    n as real / 100.0
  }

  /** The record kept for a classified flat. */
  datatype CategorizedDeal = CategorizedDeal(
    dealId: int,
    propertyId: PropId,
    areaDiff: real,
    clientId: Option<int>,
    clientName: Option<string>)

  /** What the loop body does with one surveyed flat: skip it (no deal), raise (the deal's
      contract area is null and `float()` fails), or place it in a group. */
  datatype FlatOutcome = Unmatched | ConversionError | Classified(key: GroupKey, deal: CategorizedDeal)

  function ClassifyFlat(p: PropId, area: real, lookup: map<PropId, ContractDeal>): (r: FlatOutcome)
    ensures r.Unmatched? <==> p !in lookup
    ensures r.ConversionError? <==> p in lookup && lookup[p].contractArea.None?
    ensures r.Classified? ==>
      var d := lookup[p];
      var diff := area - d.contractArea.value;
      && r.deal.propertyId == p && r.deal.dealId == d.dealId
      && r.deal.clientId == d.clientId && r.deal.clientName == d.clientName
      && KeyParts(r.key) == (d.hasDebt, BucketOf(diff))
      && r.deal.areaDiff == Round2(diff)
      && -0.005 <= r.deal.areaDiff - diff <= 0.005
  {
    if p !in lookup then Unmatched
    else
      var d := lookup[p];
      if d.contractArea.None? then ConversionError
      else
        var diff := area - d.contractArea.value;
        Classified(GroupKeyFor(d.hasDebt, BucketOf(diff)), CategorizedDeal(d.dealId, p, Round2(diff), d.clientId, d.clientName))
  }

  /** The flats placed in a group, in survey order, each with its group key. */
  function Matched(survey: seq<(PropId, real)>, lookup: map<PropId, ContractDeal>): (m: seq<(GroupKey, CategorizedDeal)>)
    ensures |m| <= |survey|
    ensures forall i :: 0 <= i < |m| ==> m[i].1.propertyId in lookup
    ensures forall i :: 0 <= i < |survey| && ClassifyFlat(survey[i].0, survey[i].1, lookup).Classified? ==>
      var c := ClassifyFlat(survey[i].0, survey[i].1, lookup);
      (c.key, c.deal) in m
  {
    if |survey| == 0 then []
    else
      var last := survey[|survey| - 1];
      var init := Matched(survey[..|survey| - 1], lookup);
      match ClassifyFlat(last.0, last.1, lookup)
      case Classified(k, d) => init + [(k, d)]
      case _ => init
  }

  /** `idx` places `m` in the survey: entry j is the classification of the surveyed flat at
      position `idx[j]`, the positions strictly increase, and every flat that classifies has
      its position among them. */
  ghost predicate PlacementIndex(survey: seq<(PropId, real)>, lookup: map<PropId, ContractDeal>,
                                 m: seq<(GroupKey, CategorizedDeal)>, idx: seq<int>) {
    && |idx| == |m|
    && (forall j :: 0 <= j < |idx| ==>
          0 <= idx[j] < |survey| && ClassifyFlat(survey[idx[j]].0, survey[idx[j]].1, lookup) == Classified(m[j].0, m[j].1))
    && (forall j, j' :: 0 <= j < j' < |idx| ==> idx[j] < idx[j'])
    && (forall i :: 0 <= i < |survey| && ClassifyFlat(survey[i].0, survey[i].1, lookup).Classified? ==> i in idx)
  }

  /** The placed flats are exactly the classifications of the surveyed flats that classify,
      one each, in survey order. */
  lemma {:induction false} MatchedFollowsSurvey(survey: seq<(PropId, real)>, lookup: map<PropId, ContractDeal>)
    ensures exists idx :: PlacementIndex(survey, lookup, Matched(survey, lookup), idx)
    decreases |survey|
  {
    if |survey| == 0 {
      assert Matched(survey, lookup) == [];
      assert PlacementIndex(survey, lookup, [], []);
    } else {
      var n := |survey| - 1;
      MatchedFollowsSurvey(survey[..n], lookup);
      var idx0 :| PlacementIndex(survey[..n], lookup, Matched(survey[..n], lookup), idx0);
      PlacementStep(survey, lookup, idx0);
    }
  }

  /** The induction step: the last surveyed flat extends the placement iff it classifies. */
  lemma PlacementStep(survey: seq<(PropId, real)>, lookup: map<PropId, ContractDeal>, idx0: seq<int>)
    requires |survey| > 0
    requires PlacementIndex(survey[..|survey| - 1], lookup, Matched(survey[..|survey| - 1], lookup), idx0)
    ensures exists idx :: PlacementIndex(survey, lookup, Matched(survey, lookup), idx)
  {
    var n := |survey| - 1;
    if ClassifyFlat(survey[n].0, survey[n].1, lookup).Classified? {
      PlacementAppend(survey, lookup, idx0);
    } else {
      PlacementSkip(survey, lookup, idx0);
    }
  }

  lemma PlacementAppend(survey: seq<(PropId, real)>, lookup: map<PropId, ContractDeal>, idx0: seq<int>)
    requires |survey| > 0
    requires ClassifyFlat(survey[|survey| - 1].0, survey[|survey| - 1].1, lookup).Classified?
    requires PlacementIndex(survey[..|survey| - 1], lookup, Matched(survey[..|survey| - 1], lookup), idx0)
    ensures PlacementIndex(survey, lookup, Matched(survey, lookup), idx0 + [|survey| - 1])
  {
    var n := |survey| - 1;
    var idx := idx0 + [n];
    AppendedEntries(survey, lookup, idx0);
    assert forall j, j' :: 0 <= j < j' < |idx| ==> idx[j] < idx[j'] by {
      forall j, j' | 0 <= j < j' < |idx| ensures idx[j] < idx[j'] {
        assert idx[j] == idx0[j];
      }
    }
    AppendedCover(survey, lookup, idx0);
  }

  lemma AppendedEntries(survey: seq<(PropId, real)>, lookup: map<PropId, ContractDeal>, idx0: seq<int>)
    requires |survey| > 0
    requires ClassifyFlat(survey[|survey| - 1].0, survey[|survey| - 1].1, lookup).Classified?
    requires PlacementIndex(survey[..|survey| - 1], lookup, Matched(survey[..|survey| - 1], lookup), idx0)
    ensures var idx := idx0 + [|survey| - 1];
      var m := Matched(survey, lookup);
      && |idx| == |m|
      && forall j :: 0 <= j < |idx| ==>
        0 <= idx[j] < |survey| && ClassifyFlat(survey[idx[j]].0, survey[idx[j]].1, lookup) == Classified(m[j].0, m[j].1)
  {
    var n := |survey| - 1;
    var init := survey[..n];
    var m0 := Matched(init, lookup);
    var c := ClassifyFlat(survey[n].0, survey[n].1, lookup);
    var m := Matched(survey, lookup);
    var idx := idx0 + [n];
    assert m == m0 + [(c.key, c.deal)];
    forall j | 0 <= j < |idx|
      ensures 0 <= idx[j] < |survey| && ClassifyFlat(survey[idx[j]].0, survey[idx[j]].1, lookup) == Classified(m[j].0, m[j].1)
    {
      if j < |idx0| {
        assert idx[j] == idx0[j] && m[j] == m0[j];
        assert init[idx0[j]] == survey[idx0[j]];
      } else {
        assert idx[j] == n && m[j] == (c.key, c.deal);
      }
    }
  }

  lemma AppendedCover(survey: seq<(PropId, real)>, lookup: map<PropId, ContractDeal>, idx0: seq<int>)
    requires |survey| > 0
    requires PlacementIndex(survey[..|survey| - 1], lookup, Matched(survey[..|survey| - 1], lookup), idx0)
    ensures forall i :: 0 <= i < |survey| && ClassifyFlat(survey[i].0, survey[i].1, lookup).Classified? ==>
      i in idx0 + [|survey| - 1]
  {
    var n := |survey| - 1;
    var init := survey[..n];
    var idx := idx0 + [n];
    forall i | 0 <= i < |survey| && ClassifyFlat(survey[i].0, survey[i].1, lookup).Classified? ensures i in idx {
      if i < n {
        assert init[i] == survey[i];
        assert i in idx0;
      } else {
        assert idx[|idx0|] == i;
      }
    }
  }

  lemma PlacementSkip(survey: seq<(PropId, real)>, lookup: map<PropId, ContractDeal>, idx0: seq<int>)
    requires |survey| > 0
    requires !ClassifyFlat(survey[|survey| - 1].0, survey[|survey| - 1].1, lookup).Classified?
    requires PlacementIndex(survey[..|survey| - 1], lookup, Matched(survey[..|survey| - 1], lookup), idx0)
    ensures PlacementIndex(survey, lookup, Matched(survey, lookup), idx0)
  {
    var n := |survey| - 1;
    var init := survey[..n];
    assert Matched(survey, lookup) == Matched(init, lookup);
    assert forall i :: 0 <= i < n ==> init[i] == survey[i];
    forall i | 0 <= i < |survey| && ClassifyFlat(survey[i].0, survey[i].1, lookup).Classified? ensures i in idx0 {
      assert i != n;
    }
  }

  /** Some surveyed flat makes the loop raise. */
  predicate AnyConversionError(survey: seq<(PropId, real)>, lookup: map<PropId, ContractDeal>) {
    exists i :: 0 <= i < |survey| && ClassifyFlat(survey[i].0, survey[i].1, lookup).ConversionError?
  }

  /** The deals of `m` whose key is `k`, in order. */
  function Select(m: seq<(GroupKey, CategorizedDeal)>, k: GroupKey): seq<CategorizedDeal> {
    if |m| == 0 then []
    else Select(m[..|m| - 1], k) + (if m[|m| - 1].0 == k then [m[|m| - 1].1] else [])
  }

  lemma {:induction false} SelectAppend(a: seq<(GroupKey, CategorizedDeal)>, b: seq<(GroupKey, CategorizedDeal)>, k: GroupKey)
    ensures Select(a + b, k) == Select(a, k) + Select(b, k)
    decreases |b|
  {
    if |b| > 0 {
      assert (a + b)[..|a + b| - 1] == a + b[..|b| - 1];
      SelectAppend(a, b[..|b| - 1], k);
    } else {
      assert a + b == a;
    }
  }

  /** One group of the result: its key and its deals in insertion order. */
  datatype GroupEntry = GroupEntry(key: GroupKey, deals: seq<CategorizedDeal>)

  /** The `defaultdict(list)` result: groups in order of first insertion. */
  type Grouping = seq<GroupEntry>

  predicate DistinctKeys(g: Grouping) {
    forall i, j :: 0 <= i < j < |g| ==> g[i].key != g[j].key
  }

  predicate NoEmptyGroups(g: Grouping) {
    forall i :: 0 <= i < |g| ==> |g[i].deals| > 0
  }

  function GroupKeys(g: Grouping): set<GroupKey> {
    set i | 0 <= i < |g| :: g[i].key
  }

  /** The deals of group `k` (`categorized_deals[k]`), empty when there is no such group. */
  function DealsOf(g: Grouping, k: GroupKey): seq<CategorizedDeal> {
    if |g| == 0 then [] else if g[0].key == k then g[0].deals else DealsOf(g[1..], k)
  }

  /** `categorized_deals[k].append(d)`. */
  function Insert(g: Grouping, k: GroupKey, d: CategorizedDeal): Grouping {
    if |g| == 0 then [GroupEntry(k, [d])]
    else if g[0].key == k then [GroupEntry(k, g[0].deals + [d])] + g[1..]
    else [g[0]] + Insert(g[1..], k, d)
  }

  lemma GroupKeysCons(g: Grouping)
    requires |g| > 0
    ensures GroupKeys(g) == {g[0].key} + GroupKeys(g[1..])
  {
    forall x | x in GroupKeys(g) ensures x in {g[0].key} + GroupKeys(g[1..]) {
      var i :| 0 <= i < |g| && g[i].key == x;
      if i > 0 { assert g[1..][i - 1] == g[i]; }
    }
    forall x | x in GroupKeys(g[1..]) ensures x in GroupKeys(g) {
      var i :| 0 <= i < |g[1..]| && g[1..][i].key == x;
      assert g[i + 1] == g[1..][i];
    }
  }

  /** Appending to a group adds its key, if it is new. */
  lemma {:induction false} InsertKeys(g: Grouping, k: GroupKey, d: CategorizedDeal)
    ensures GroupKeys(Insert(g, k, d)) == GroupKeys(g) + {k}
    decreases |g|
  {
    var r := Insert(g, k, d);
    if |g| == 0 {
      assert r[0].key == k;
    } else {
      GroupKeysCons(g);
      GroupKeysCons(r);
      if g[0].key == k {
        assert r[1..] == g[1..];
      } else {
        assert r[1..] == Insert(g[1..], k, d);
        InsertKeys(g[1..], k, d);
      }
    }
  }

  lemma DistinctKeysTail(g: Grouping)
    requires |g| > 0 && DistinctKeys(g)
    ensures DistinctKeys(g[1..])
    ensures g[0].key !in GroupKeys(g[1..])
  {
    forall i, j | 0 <= i < j < |g[1..]| ensures g[1..][i].key != g[1..][j].key {
      assert g[1..][i] == g[i + 1] && g[1..][j] == g[j + 1];
    }
    forall i | 0 <= i < |g[1..]| ensures g[1..][i].key != g[0].key {
      assert g[1..][i] == g[i + 1];
    }
  }

  /** Appending to a group keeps the group keys distinct. */
  lemma {:induction false} InsertDistinct(g: Grouping, k: GroupKey, d: CategorizedDeal)
    requires DistinctKeys(g)
    ensures DistinctKeys(Insert(g, k, d))
    decreases |g|
  {
    var r := Insert(g, k, d);
    if |g| > 0 {
      if g[0].key == k {
        assert forall i :: 0 < i < |r| ==> r[i] == g[i];
      } else {
        var rest := Insert(g[1..], k, d);
        DistinctKeysTail(g);
        InsertDistinct(g[1..], k, d);
        InsertKeys(g[1..], k, d);
        forall i, j | 0 <= i < j < |r| ensures r[i].key != r[j].key {
          assert r[j] == rest[j - 1];
          if i == 0 {
            assert r[j].key in GroupKeys(rest);
          } else {
            assert r[i] == rest[i - 1];
          }
        }
      }
    }
  }

  /** Appending to a group never leaves an empty group. */
  lemma {:induction false} InsertNonEmpty(g: Grouping, k: GroupKey, d: CategorizedDeal)
    requires NoEmptyGroups(g)
    ensures NoEmptyGroups(Insert(g, k, d))
    decreases |g|
  {
    var r := Insert(g, k, d);
    if |g| > 0 && g[0].key != k {
      var rest := Insert(g[1..], k, d);
      assert NoEmptyGroups(g[1..]) by {
        forall i | 0 <= i < |g[1..]| ensures |g[1..][i].deals| > 0 {
          assert g[1..][i] == g[i + 1];
        }
      }
      InsertNonEmpty(g[1..], k, d);
      forall i | 0 <= i < |r| ensures |r[i].deals| > 0 {
        if i > 0 { assert r[i] == rest[i - 1]; }
      }
    } else if |g| > 0 {
      assert forall i :: 0 < i < |r| ==> r[i] == g[i];
    }
  }

  lemma {:induction false} InsertDealsOf(g: Grouping, k: GroupKey, d: CategorizedDeal, k': GroupKey)
    ensures DealsOf(Insert(g, k, d), k') == DealsOf(g, k') + (if k' == k then [d] else [])
    decreases |g|
  {
    if |g| > 0 && g[0].key != k {
      var r := Insert(g, k, d);
      assert r[1..] == Insert(g[1..], k, d);
      InsertDealsOf(g[1..], k, d, k');
    } else if |g| > 0 {
      assert Insert(g, k, d)[1..] == g[1..];
    }
  }

  /** The grouping the survey loop builds from the placed flats. */
  function Group(m: seq<(GroupKey, CategorizedDeal)>): (g: Grouping)
    ensures DistinctKeys(g) && NoEmptyGroups(g)
    ensures GroupKeys(g) == Assoc.KeysOf(m)
  {
    if |m| == 0 then []
    else
      var init := m[..|m| - 1];
      var last := m[|m| - 1];
      InsertKeys(Group(init), last.0, last.1);
      InsertDistinct(Group(init), last.0, last.1);
      InsertNonEmpty(Group(init), last.0, last.1);
      assert m == init + [last];
      Assoc.KeysOfAppend(init, last);
      Insert(Group(init), last.0, last.1)
  }

  /** Each group holds exactly the placed flats of its key, in survey order. */
  lemma {:induction false} GroupHoldsSelection(m: seq<(GroupKey, CategorizedDeal)>, k: GroupKey)
    ensures DealsOf(Group(m), k) == Select(m, k)
    decreases |m|
  {
    if |m| > 0 {
      GroupHoldsSelection(m[..|m| - 1], k);
      InsertDealsOf(Group(m[..|m| - 1]), m[|m| - 1].0, m[|m| - 1].1, k);
    }
  }

  /** A group's deals, each tagged with the group's key. */
  function Tag(e: GroupEntry): (t: seq<(GroupKey, CategorizedDeal)>)
    ensures |t| == |e.deals|
    ensures forall i :: 0 <= i < |t| ==> t[i] == (e.key, e.deals[i])
  {
    seq(|e.deals|, i requires 0 <= i < |e.deals| => (e.key, e.deals[i]))
  }

  /** All deals, group by group, each tagged with its group key. */
  function Flatten(g: Grouping): seq<(GroupKey, CategorizedDeal)> {
    if |g| == 0 then [] else Tag(g[0]) + Flatten(g[1..])
  }

  /** The flattened list holds a (key, deal) pair exactly when some group with that key holds
      the deal. */
  lemma {:induction false} FlattenMembers(g: Grouping, e: (GroupKey, CategorizedDeal))
    ensures e in Flatten(g) <==> exists i :: 0 <= i < |g| && g[i].key == e.0 && e.1 in g[i].deals
    decreases |g|
  {
    if |g| > 0 {
      FlattenMembers(g[1..], e);
      assert forall i :: 1 <= i < |g| ==> g[1..][i - 1] == g[i];
      assert e in Tag(g[0]) <==> g[0].key == e.0 && e.1 in g[0].deals by {
        if e in Tag(g[0]) {
          var j :| 0 <= j < |Tag(g[0])| && Tag(g[0])[j] == e;
        }
        if g[0].key == e.0 && e.1 in g[0].deals {
          var j :| 0 <= j < |g[0].deals| && g[0].deals[j] == e.1;
          assert Tag(g[0])[j] == e;
        }
      }
      if exists i :: 0 <= i < |g| && g[i].key == e.0 && e.1 in g[i].deals {
        var i :| 0 <= i < |g| && g[i].key == e.0 && e.1 in g[i].deals;
        if i > 0 {
          assert g[1..][i - 1] == g[i];
        }
      }
    }
  }

  lemma {:induction false} FlattenInsert(g: Grouping, k: GroupKey, d: CategorizedDeal)
    ensures multiset(Flatten(Insert(g, k, d))) == multiset(Flatten(g)) + multiset{(k, d)}
    decreases |g|
  {
    var r := Insert(g, k, d);
    if |g| == 0 {
      assert Flatten(r) == Tag(GroupEntry(k, [d])) + Flatten([]);
      assert Tag(GroupEntry(k, [d])) == [(k, d)];
    } else if g[0].key == k {
      assert r[1..] == g[1..];
      assert Tag(r[0]) == Tag(g[0]) + [(k, d)];
    } else {
      assert r[0] == g[0] && r[1..] == Insert(g[1..], k, d);
      FlattenInsert(g[1..], k, d);
    }
  }

  /** Flattening the grouping gives back the placed flats, up to order: every placed flat is
      in exactly one group, under its own key, and nothing else is. */
  lemma {:induction false} FlattenGroupPermutes(m: seq<(GroupKey, CategorizedDeal)>)
    ensures multiset(Flatten(Group(m))) == multiset(m)
    decreases |m|
  {
    if |m| > 0 {
      var init := m[..|m| - 1];
      FlattenGroupPermutes(init);
      FlattenInsert(Group(init), m[|m| - 1].0, m[|m| - 1].1);
      assert m == init + [m[|m| - 1]];
    }
  }

  lemma {:induction false} SelectTag(e: GroupEntry, k: GroupKey)
    ensures Select(Tag(e), k) == if e.key == k then e.deals else []
    decreases |e.deals|
  {
    if |e.deals| > 0 {
      var init := GroupEntry(e.key, e.deals[..|e.deals| - 1]);
      assert Tag(e)[..|Tag(e)| - 1] == Tag(init);
      SelectTag(init, k);
      if e.key == k {
        assert e.deals == init.deals + [e.deals[|e.deals| - 1]];
      }
    }
  }

  lemma {:induction false} SelectFlattenMissing(g: Grouping, k: GroupKey)
    requires k !in GroupKeys(g)
    ensures Select(Flatten(g), k) == []
    ensures DealsOf(g, k) == []
    decreases |g|
  {
    if |g| > 0 {
      assert GroupKeys(g[1..]) <= GroupKeys(g) by {
        forall x | x in GroupKeys(g[1..]) ensures x in GroupKeys(g) {
          var i :| 0 <= i < |g[1..]| && g[1..][i].key == x;
          assert g[i + 1] == g[1..][i];
        }
      }
      assert g[0].key in GroupKeys(g);
      SelectAppend(Tag(g[0]), Flatten(g[1..]), k);
      SelectTag(g[0], k);
      SelectFlattenMissing(g[1..], k);
    }
  }

  /** Filtering the flattened list by a key gives back that group, in order. */
  lemma {:induction false} SelectFlatten(g: Grouping, k: GroupKey)
    requires DistinctKeys(g)
    ensures Select(Flatten(g), k) == DealsOf(g, k)
    decreases |g|
  {
    if |g| > 0 {
      SelectAppend(Tag(g[0]), Flatten(g[1..]), k);
      SelectTag(g[0], k);
      assert DistinctKeys(g[1..]) by {
        forall i, j | 0 <= i < j < |g[1..]| ensures g[1..][i].key != g[1..][j].key {
          assert g[1..][i] == g[i + 1] && g[1..][j] == g[j + 1];
        }
      }
      if g[0].key == k {
        assert k !in GroupKeys(g[1..]) by {
          forall i | 0 <= i < |g[1..]| ensures g[1..][i].key != k {
            assert g[1..][i] == g[i + 1];
          }
        }
        SelectFlattenMissing(g[1..], k);
      } else {
        SelectFlatten(g[1..], k);
      }
    }
  }

  /** The reset of an existing row, column by column; it leaves the row exactly as a newly
      created one for the same deal. */
  function ResetRow(s: DealStatus, k: GroupKey): (r: DealStatus)
    ensures r == NewDealStatus(s.dealId, Some(k))
  {
    s.(groupKey := Some(k),
       status := Processing,
       documentsDeliveredAt := None,
       clientArrivedAt := None,
       unilateralActDownloadedAt := None,
       unilateralActUploadedPath := None,
       acceptanceActDownloadedAt := None,
       isActSigned := None,
       hasDefectList := None,
       signedActUploadedPath := None,
       defectListUploadedPath := None)
  }

  /** `all_deals_map` reduced to what the sync uses: each deal id with the group of its last
      occurrence in flattened order. */
  function SyncTargets(flat: seq<(GroupKey, CategorizedDeal)>): (t: map<int, GroupKey>)
    ensures forall id :: id in t <==> exists i :: 0 <= i < |flat| && flat[i].1.dealId == id
    ensures forall id :: id in t ==> exists i :: LastOccurrence(flat, id, i) && t[id] == flat[i].0
  {
    var pairs := seq(|flat|, i requires 0 <= i < |flat| => (flat[i].1.dealId, flat[i].0));
    var t := Assoc.LastWins(pairs);
    forall id ensures id in t <==> exists i :: 0 <= i < |flat| && flat[i].1.dealId == id {
      if id in t {
        var i :| 0 <= i < |pairs| && pairs[i].0 == id;
        assert flat[i].1.dealId == id;
      }
      if exists i :: 0 <= i < |flat| && flat[i].1.dealId == id {
        var i :| 0 <= i < |flat| && flat[i].1.dealId == id;
        assert pairs[i].0 == id;
      }
    }
    forall id | id in t ensures exists i :: LastOccurrence(flat, id, i) && t[id] == flat[i].0 {
      var i :| Assoc.IsLastFor(pairs, id, i) && t[id] == pairs[i].1;
      forall j | i < j < |flat| ensures flat[j].1.dealId != id {
        assert pairs[j].0 == flat[j].1.dealId;
      }
      assert LastOccurrence(flat, id, i);
    }
    t
  }

  /** Position `i` is the last entry of `flat` for deal `id`. */
  ghost predicate LastOccurrence(flat: seq<(GroupKey, CategorizedDeal)>, id: int, i: int) {
    && 0 <= i < |flat|
    && flat[i].1.dealId == id
    && forall j :: i < j < |flat| ==> flat[j].1.dealId != id
  }

  /** The status sync: reset every targeted row that exists, create every one that does not,
      and commit; a failed commit rolls everything back. */
  function Sync(store: Store, targets: map<int, GroupKey>, commits: bool): (r: Store)
    ensures !commits ==> r == store
    ensures commits ==> r.Keys == store.Keys + targets.Keys
    ensures commits ==> forall id :: id in targets ==> r[id].status == Processing && WorkflowCleared(r[id]) && r[id].groupKey == Some(targets[id])
    ensures commits && WellKeyed(store) ==> forall id :: id in targets ==> r[id] == NewDealStatus(id, Some(targets[id]))
    ensures forall id :: id in store && id !in targets ==> r[id] == store[id]
    ensures WellKeyed(store) ==> WellKeyed(r)
  {
    if !commits then store
    else
      var updated := map id | id in targets :: if id in store then ResetRow(store[id], targets[id]) else NewDealStatus(id, Some(targets[id]));
      store + updated
  }

  /** A second sync with the same targets changes nothing. */
  lemma SyncIdempotent(store: Store, targets: map<int, GroupKey>, commits: bool)
    ensures Sync(Sync(store, targets, commits), targets, commits) == Sync(store, targets, commits)
  {
    if commits {
      var once := Sync(store, targets, commits);
      var twice := Sync(once, targets, commits);
      assert twice.Keys == once.Keys;
      forall id | id in once ensures twice[id] == once[id] {
        if id in targets {
          assert once[id] == NewDealStatus(once[id].dealId, Some(targets[id])) by {
            if id in store {
              assert once[id] == ResetRow(store[id], targets[id]);
            }
          }
        }
      }
    }
  }

  /** The result of `process_cadastre_data`: it raises, or returns the grouping together with
      the status table it leaves behind. */
  datatype ProcessOutcome = Failed | Processed(groups: Grouping, store: Store)

  function ProcessCadastreData(survey: seq<(PropId, real)>, lookup: map<PropId, ContractDeal>, store: Store, commits: bool): (r: ProcessOutcome)
    ensures |survey| == 0 ==> r == Processed([], store)
    ensures r.Failed? <==> AnyConversionError(survey, lookup)
    ensures r.Processed? ==> DistinctKeys(r.groups) && NoEmptyGroups(r.groups)
    ensures r.Processed? ==> r.store.Keys >= store.Keys
  {
    if |survey| == 0 then Processed([], store)
    else if AnyConversionError(survey, lookup) then Failed
    else
      var groups := Group(Matched(survey, lookup));
      Processed(groups, Sync(store, SyncTargets(Flatten(groups)), commits))
  }

  lemma {:induction false} InSelect(m: seq<(GroupKey, CategorizedDeal)>, k: GroupKey, d: CategorizedDeal)
    requires (k, d) in m
    ensures d in Select(m, k)
    decreases |m|
  {
    if m[|m| - 1] != (k, d) {
      var i :| 0 <= i < |m| && m[i] == (k, d);
      assert m[..|m| - 1][i] == m[i];
      InSelect(m[..|m| - 1], k, d);
    }
  }

  /** Each group of the result holds exactly the surveyed flats placed under its key, in survey
      order; groups are distinct and none is empty. */
  lemma ResultGroups(survey: seq<(PropId, real)>, lookup: map<PropId, ContractDeal>, store: Store, commits: bool, k: GroupKey)
    requires ProcessCadastreData(survey, lookup, store, commits).Processed?
    ensures DealsOf(ProcessCadastreData(survey, lookup, store, commits).groups, k) == Select(Matched(survey, lookup), k)
  {
    GroupHoldsSelection(Matched(survey, lookup), k);
  }

  /** A surveyed flat that has a deal lands in the group its debt flag and area bucket select. */
  lemma ClassifiedFlatIsPlaced(survey: seq<(PropId, real)>, lookup: map<PropId, ContractDeal>, store: Store, commits: bool, i: int)
    requires ProcessCadastreData(survey, lookup, store, commits).Processed?
    requires 0 <= i < |survey| && survey[i].0 in lookup
    ensures var c := ClassifyFlat(survey[i].0, survey[i].1, lookup);
      && c.Classified?
      && c.deal in DealsOf(ProcessCadastreData(survey, lookup, store, commits).groups, c.key)
  {
    var c := ClassifyFlat(survey[i].0, survey[i].1, lookup);
    assert !c.ConversionError?;
    InSelect(Matched(survey, lookup), c.key, c.deal);
    ResultGroups(survey, lookup, store, commits, c.key);
  }

  /** A surveyed flat with no deal in the lookup appears in no group. */
  lemma UnmatchedFlatIsSkipped(survey: seq<(PropId, real)>, lookup: map<PropId, ContractDeal>, store: Store, commits: bool, p: PropId)
    requires ProcessCadastreData(survey, lookup, store, commits).Processed?
    requires p !in lookup
    ensures forall e :: e in Flatten(ProcessCadastreData(survey, lookup, store, commits).groups) ==> e.1.propertyId != p
  {
    var m := Matched(survey, lookup);
    if |survey| > 0 {
      FlattenGroupPermutes(m);
      forall e | e in Flatten(Group(m)) ensures e.1.propertyId != p {
        assert e in multiset(Flatten(Group(m)));
        assert e in multiset(m);
      }
    }
  }

  /** After a committed sync, the classified deals are exactly the rows the sync touched: each
      is a fresh `processing` row with every workflow column cleared, in the group of its last
      occurrence; every other row is as before. A failed commit leaves the table as it was, and
      the grouping is returned all the same. */
  lemma SyncOutcome(survey: seq<(PropId, real)>, lookup: map<PropId, ContractDeal>, store: Store, commits: bool)
    requires WellKeyed(store)
    requires ProcessCadastreData(survey, lookup, store, commits).Processed?
    ensures var r := ProcessCadastreData(survey, lookup, store, commits);
      var classified := set i | 0 <= i < |Matched(survey, lookup)| :: Matched(survey, lookup)[i].1.dealId;
      var t := SyncTargets(Flatten(r.groups));
      && WellKeyed(r.store)
      && (forall id :: id in t <==> id in classified)
      && (commits ==> forall id :: id in t ==> id in r.store && r.store[id] == NewDealStatus(id, Some(t[id])))
      && (forall id :: id in store && id !in classified ==> r.store[id] == store[id])
      && (!commits ==> r.store == store)
      && r.groups == ProcessCadastreData(survey, lookup, store, !commits).groups
  {
    var m := Matched(survey, lookup);
    var classified := set i | 0 <= i < |m| :: m[i].1.dealId;
    if |survey| > 0 {
      var flat := Flatten(Group(m));
      var t := SyncTargets(flat);
      FlattenGroupPermutes(m);
      forall id ensures id in t <==> id in classified {
        if id in t {
          var i :| 0 <= i < |flat| && flat[i].1.dealId == id;
          assert flat[i] in multiset(m);
        }
        if id in classified {
          var i :| 0 <= i < |m| && m[i].1.dealId == id;
          assert m[i] in multiset(flat);
          var j :| 0 <= j < |flat| && flat[j] == m[i];
        }
      }
    }
  }

  /** A deal placed once gets, after a committed sync, a fresh `processing` row in the group
      that holds it. */
  lemma UniqueDealTakesItsGroup(survey: seq<(PropId, real)>, lookup: map<PropId, ContractDeal>, store: Store, i: int)
    requires WellKeyed(store)
    requires ProcessCadastreData(survey, lookup, store, true).Processed?
    requires 0 <= i < |Matched(survey, lookup)|
    requires forall j :: 0 <= j < |Matched(survey, lookup)| && j != i ==>
      Matched(survey, lookup)[j].1.dealId != Matched(survey, lookup)[i].1.dealId
    ensures var r := ProcessCadastreData(survey, lookup, store, true);
      var e := Matched(survey, lookup)[i];
      && e.1 in DealsOf(r.groups, e.0)
      && e.1.dealId in r.store
      && r.store[e.1.dealId] == NewDealStatus(e.1.dealId, Some(e.0))
  {
    var m := Matched(survey, lookup);
    var e := m[i];
    var id := e.1.dealId;
    var flat := Flatten(Group(m));
    var t := SyncTargets(flat);
    FlattenGroupPermutes(m);
    assert e in multiset(flat);
    assert id in t;
    var k :| LastOccurrence(flat, id, k) && t[id] == flat[k].0;
    assert flat[k] in multiset(m);
    var j :| 0 <= j < |m| && m[j] == flat[k];
    assert j == i;
    InSelect(m, e.0, e.1);
    ResultGroups(survey, lookup, store, true, e.0);
  }

  /** Classifying the same survey again against the same deals yields the same grouping and
      leaves the status table as the first run left it. */
  lemma ReclassifyIsIdempotent(survey: seq<(PropId, real)>, lookup: map<PropId, ContractDeal>, store: Store, commits: bool)
    requires ProcessCadastreData(survey, lookup, store, commits).Processed?
    ensures var first := ProcessCadastreData(survey, lookup, store, commits);
      ProcessCadastreData(survey, lookup, first.store, commits) == first
  {
    if |survey| > 0 {
      var groups := Group(Matched(survey, lookup));
      SyncIdempotent(store, SyncTargets(Flatten(groups)), commits);
    }
  }

  /** A flat measured 55.3 against a contract area of 53.0, without debt, differs by 2.3 and is
      placed in `5_increase_only`. */
  lemma IncreaseScenario(store: Store, commits: bool, d: ContractDeal)
    requires d.contractArea == Some(53.0) && !d.hasDebt
    ensures var r := ProcessCadastreData([("12", 55.3)], map["12" := d], store, commits);
      && r.Processed?
      && r.groups == [GroupEntry(IncreaseOnly, [CategorizedDeal(d.dealId, "12", 2.3, d.clientId, d.clientName)])]
  {
    assert (230.0).Floor == 230;
    var survey := [("12", 55.3)];
    assert !AnyConversionError(survey, map["12" := d]);
    var m := Matched(survey, map["12" := d]);
    assert m == [(IncreaseOnly, CategorizedDeal(d.dealId, "12", 2.3, d.clientId, d.clientName))];
    assert m[..0] == [];
    assert Group(m) == Insert([], m[0].0, m[0].1);
  }

  /** The bucket is chosen on the unrounded difference while the stored difference is rounded:
      a difference of 2.001 is stored as 2.0, yet the flat lands in `5_increase_only`. */
  lemma RoundedDiffAboveBucket(store: Store, commits: bool, d: ContractDeal)
    requires d.contractArea == Some(53.0) && !d.hasDebt
    ensures var r := ProcessCadastreData([("12", 55.001)], map["12" := d], store, commits);
      && r.Processed?
      && r.groups == [GroupEntry(IncreaseOnly, [CategorizedDeal(d.dealId, "12", 2.0, d.clientId, d.clientName)])]
      && BucketOf(r.groups[0].deals[0].areaDiff) == NoChange
  {
    assert (200.1).Floor == 200;
    var survey := [("12", 55.001)];
    assert !AnyConversionError(survey, map["12" := d]);
    var m := Matched(survey, map["12" := d]);
    assert m == [(IncreaseOnly, CategorizedDeal(d.dealId, "12", 2.0, d.clientId, d.clientName))];
    assert m[..0] == [];
    assert Group(m) == Insert([], m[0].0, m[0].1);
  }
}

=== FILE: routes.dfy ===
/** The request-level logic of the routes: the deals listing (flatten, deadline, group filter,
    pagination) and which status actions each POST route sends. */
module Routes {
  import opened Wrappers
  import opened Models
  import opened DataService
  import opened StatusMachine
  import opened Processing
  import Decimal

  /** `PER_PAGE`. */
  const PerPage: nat := 20

  function Min(a: int, b: int): int {
    if a <= b then a else b
  }

  /** How Python normalises a slice bound against a length `n`: a negative bound counts from
      the end, and the result is clamped to `[0, n]`. */
  function SliceBound(i: int, n: nat): (r: nat)
    ensures r <= n
    ensures 0 <= i <= n ==> r == i
    ensures i > n ==> r == n
    ensures i < 0 ==> r == (if i + n < 0 then 0 else i + n)
  {
    if i < 0 then (if i + n < 0 then 0 else i + n) else if i > n then n else i
  }

  /** `s[start:stop]`: the consecutive items from the normalised start up to the normalised
      stop, none when the stop does not lie past the start. */
  function PySlice<T>(s: seq<T>, start: int, stop: int): (r: seq<T>)
    ensures |r| == (if SliceBound(start, |s|) < SliceBound(stop, |s|) then SliceBound(stop, |s|) - SliceBound(start, |s|) else 0)
    ensures forall i :: 0 <= i < |r| ==> r[i] == s[SliceBound(start, |s|) + i]
  {
    var a := SliceBound(start, |s|);
    var b := SliceBound(stop, |s|);
    if a < b then s[a..b] else []
  }

  /** `filtered_deals[start:end]` with `start = (page - 1) * PER_PAGE`, `end = start + PER_PAGE`. */
  function PageOf<T>(s: seq<T>, page: int): (r: seq<T>)
    ensures |r| <= PerPage
    ensures page >= 1 ==> r == s[Min((page - 1) * PerPage, |s|)..Min(page * PerPage, |s|)]
  {
    PySlice(s, (page - 1) * PerPage, (page - 1) * PerPage + PerPage)
  }

  /** `math.ceil(total / PER_PAGE)`. */
  function TotalPages(n: nat): (r: nat)
    ensures (r - 1) * PerPage < n <= r * PerPage
  {
    (n + PerPage - 1) / PerPage
  }

  /** A page `p >= 1` is the window `[(p-1)·20, p·20)` of the list cut to its length: at most 20
      items, and empty exactly when `p` is past the last page. */
  lemma PageWindow<T>(s: seq<T>, page: int)
    requires page >= 1
    ensures PageOf(s, page) == s[Min((page - 1) * PerPage, |s|)..Min(page * PerPage, |s|)]
    ensures |PageOf(s, page)| <= PerPage
    ensures PageOf(s, page) == [] <==> page > TotalPages(|s|)
  {
    var n := |s|;
    var tp := TotalPages(n);
    if page <= tp {
      assert (page - 1) * PerPage <= (tp - 1) * PerPage;
    } else {
      assert tp * PerPage <= (page - 1) * PerPage;
    }
  }

  /** Page 0 shows nothing (the slice `[-20:0]`). */
  lemma PageZeroIsEmpty<T>(s: seq<T>)
    ensures PageOf(s, 0) == []
  {
  }

  /** A negative page counts from the end of the list: with 45 deals, page -1 is the slice
      `[-40:-20]`, the deals 5 to 24. */
  lemma NegativePageCountsFromEnd<T>(s: seq<T>)
    requires |s| == 45
    ensures PageOf(s, -1) == s[5..25]
  {
  }

  /** Pages 1 to k, one after the other. */
  function Pages<T>(s: seq<T>, k: nat): seq<T> {
    if k == 0 then [] else Pages(s, k - 1) + PageOf(s, k)
  }

  lemma {:induction false} PagesArePrefix<T>(s: seq<T>, k: nat)
    ensures Pages(s, k) == s[..Min(k * PerPage, |s|)]
  {
    if k > 0 {
      PagesArePrefix(s, k - 1);
      PageWindow(s, k);
      assert s[..Min((k - 1) * PerPage, |s|)] + s[Min((k - 1) * PerPage, |s|)..Min(k * PerPage, |s|)]
          == s[..Min(k * PerPage, |s|)];
    }
  }

  /** Reading the pages 1 to `total_pages` in turn shows every deal once, in order. */
  lemma PagesCoverList<T>(s: seq<T>)
    ensures Pages(s, TotalPages(|s|)) == s
  {
    PagesArePrefix(s, TotalPages(|s|));
  }

  /** One row of the listing: the deal, its group, and what the status rows add. */
  datatype DealView = DealView(groupKey: GroupKey, deal: CategorizedDeal, info: Enrichment)

  /** The ids of the flattened deals (`all_deal_ids`). */
  function DealIds(flat: seq<(GroupKey, CategorizedDeal)>): (ids: seq<int>)
    ensures |ids| == |flat|
    ensures forall i :: 0 <= i < |flat| ==> ids[i] == flat[i].1.dealId
  {
    seq(|flat|, i requires 0 <= i < |flat| => flat[i].1.dealId)
  }

  /** The flattened deals, each enriched from the status rows fetched for all of them. */
  function Views(flat: seq<(GroupKey, CategorizedDeal)>, store: Store, now: Instant): (v: seq<DealView>)
    ensures |v| == |flat|
    ensures forall i :: 0 <= i < |v| ==>
      v[i].groupKey == flat[i].0 && v[i].deal == flat[i].1 && v[i].info == Enrich(store, flat[i].1.dealId, now)
  {
    var statuses := StatusesFor(store, DealIds(flat));
    seq(|flat|, i requires 0 <= i < |flat| => DealView(flat[i].0, flat[i].1, Enrich(statuses, flat[i].1.dealId, now)))
  }

  /** `[d for d in all_deals if d.get('group_key') == name]`. */
  function KeepGroup(v: seq<DealView>, name: string): (r: seq<DealView>)
    ensures |r| <= |v|
    ensures forall x :: x in r <==> x in v && KeyName(x.groupKey) == name
  {
    if |v| == 0 then []
    else
      var last := v[|v| - 1];
      var init := KeepGroup(v[..|v| - 1], name);
      assert v == v[..|v| - 1] + [last];
      if KeyName(last.groupKey) == name then init + [last] else init
  }

  /** The group filter: an empty filter keeps everything, any other keeps exactly the views of
      the group it names. */
  function FilterByGroup(v: seq<DealView>, filter: string): (r: seq<DealView>)
    ensures |r| <= |v|
    ensures filter == "" ==> r == v
    ensures filter != "" ==> forall x :: x in r <==> x in v && KeyName(x.groupKey) == filter
  {
    if filter == "" then v else KeepGroup(v, filter)
  }

  /** The list the listing paginates: flattened, enriched, filtered. Each view is a grouped deal
      enriched from its own status row, and a group filter shows only that group. */
  function Listing(results: Grouping, store: Store, now: Instant, filter: string): (r: seq<DealView>)
    ensures |r| <= |Flatten(results)|
    ensures forall x :: x in r ==>
      (x.groupKey, x.deal) in Flatten(results) && x.info == Enrich(store, x.deal.dealId, now)
    ensures filter != "" ==> forall x :: x in r ==> KeyName(x.groupKey) == filter
  {
    FilterByGroup(Views(Flatten(results), store, now), filter)
  }

  /** What `deals_list` renders, or the redirect it answers with when there are no results. */
  datatype DealsListPage =
    | RedirectToUpload
    | Rendered(deals: seq<DealView>, currentPage: int, totalPages: nat, activeFilter: string)

  function DealsList(results: Grouping, store: Store, now: Instant, page: int, filter: string): (r: DealsListPage)
    ensures r.RedirectToUpload? <==> |results| == 0
    ensures r.Rendered? ==> |r.deals| <= PerPage && r.currentPage == page && r.activeFilter == filter
    ensures r.Rendered? ==> r.totalPages == TotalPages(|Listing(results, store, now, filter)|)
    ensures r.Rendered? && page >= 1 ==>
      var all := Listing(results, store, now, filter);
      r.deals == all[Min((page - 1) * PerPage, |all|)..Min(page * PerPage, |all|)]
  {
    if |results| == 0 then RedirectToUpload
    else
      var all := Listing(results, store, now, filter);
      Rendered(PageOf(all, page), page, TotalPages(|all|), filter)
  }

  /** The (group, deal) pairs of a listing. */
  function Pairs(v: seq<DealView>): (p: seq<(GroupKey, CategorizedDeal)>)
    ensures |p| == |v|
    ensures forall i :: 0 <= i < |v| ==> p[i] == (v[i].groupKey, v[i].deal)
  {
    seq(|v|, i requires 0 <= i < |v| => (v[i].groupKey, v[i].deal))
  }

  function Deals(v: seq<DealView>): (d: seq<CategorizedDeal>)
    ensures |d| == |v|
    ensures forall i :: 0 <= i < |v| ==> d[i] == v[i].deal
  {
    seq(|v|, i requires 0 <= i < |v| => v[i].deal)
  }

  lemma {:induction false} KeepGroupSelects(v: seq<DealView>, k: GroupKey)
    ensures Deals(KeepGroup(v, KeyName(k))) == Select(Pairs(v), k)
    decreases |v|
  {
    if |v| > 0 {
      var init := v[..|v| - 1];
      KeepGroupSelects(init, k);
      assert Pairs(v)[..|v| - 1] == Pairs(init);
      var last := v[|v| - 1];
      assert KeyName(last.groupKey) == KeyName(k) <==> last.groupKey == k by {
        var _ := KeyFromName(KeyName(k));
      }
      if last.groupKey == k {
        assert Deals(KeepGroup(init, KeyName(k)) + [last]) == Deals(KeepGroup(init, KeyName(k))) + [last.deal];
      }
    }
  }

  /** Filtering the listing by a group's name shows exactly that group's deals, in the order
      the survey listed them. */
  lemma GroupFilterShowsGroup(results: Grouping, store: Store, now: Instant, k: GroupKey)
    requires DistinctKeys(results)
    ensures Deals(Listing(results, store, now, KeyName(k))) == DealsOf(results, k)
  {
    var flat := Flatten(results);
    var v := Views(flat, store, now);
    assert Pairs(v) == flat;
    KeepGroupSelects(v, k);
    SelectFlatten(results, k);
  }

  /** Without a filter the listing shows every flattened deal, in group order. */
  lemma NoFilterShowsAll(results: Grouping, store: Store, now: Instant)
    ensures Pairs(Listing(results, store, now, "")) == Flatten(results)
  {
  }

  /** A filter that names no group shows nothing. */
  lemma UnknownFilterShowsNothing(results: Grouping, store: Store, now: Instant, filter: string)
    requires filter != "" && KeyFromName(filter).None?
    ensures Listing(results, store, now, filter) == []
  {
    KeepUnknownGroup(Views(Flatten(results), store, now), filter);
  }

  lemma {:induction false} KeepUnknownGroup(v: seq<DealView>, name: string)
    requires KeyFromName(name).None?
    ensures KeepGroup(v, name) == []
    decreases |v|
  {
    if |v| > 0 {
      KeepUnknownGroup(v[..|v| - 1], name);
    }
  }

  /** The upload path a route stores: `uploads/<prefix><deal_id>.pdf`. */
  function UploadPath(prefix: string, dealId: nat): (p: string)
    ensures PathTruthy(Some(p))
  {
    "uploads/" + prefix + Decimal.NatToString(dealId) + ".pdf"
  }

  /** The POST and download routes that touch a deal's status, with what the request carries. */
  datatype Request =
    | MarkDeliveredRequest
    | MarkArrivedRequest
    | DownloadUnilateralAct(crmRecordFound: bool)
    | UploadUnilateralAct(scanFilename: Option<string>)
    | DownloadAcceptanceAct
    | ReportAcceptanceResult(isSigned: Option<bool>)
    | ReportDefectResult(hasDefects: Option<bool>)
    | UploadFinalDocs(signedActSent: bool, defectListSent: bool)

  /** The `update_deal_status` calls a route makes, in order. */
  function RouteActions(req: Request, dealId: nat): (r: seq<Action>)
    ensures forall i :: 0 <= i < |r| ==> WellFormedAction(r[i]) && CarriesRealPath(r[i])
    ensures forall i :: 0 <= i < |r| ==> !r[i].ProcessAcceptance?
    ensures req.UploadFinalDocs? && req.signedActSent && req.defectListSent ==>
      |r| == 2 && r[0].UploadSignedAct? && r[1].UploadDefectList?
  {
    match req
    case MarkDeliveredRequest => [MarkDelivered]
    case MarkArrivedRequest => [MarkArrived]
    case DownloadUnilateralAct(found) => if found then [ActDownloaded] else []
    case UploadUnilateralAct(scan) =>
      if scan.None? || scan.value == "" then []
      else [ActUploaded(Some(UploadPath("unilateral_act_deal_", dealId)))]
    case DownloadAcceptanceAct => [AcceptanceActDownloaded]
    case ReportAcceptanceResult(_) => [Other("report_act_signed")]
    case ReportDefectResult(_) => [Other("report_defects")]
    case UploadFinalDocs(signed, defects) =>
      (if signed then [UploadSignedAct(Some(UploadPath("signed_act_deal_", dealId)))] else [])
      + (if defects then [UploadDefectList(Some(UploadPath("defect_list_deal_", dealId)))] else [])
  }

  /** The results of the calls a request makes and the table after them. */
  datatype Handled = Handled(results: seq<bool>, store: Store)

  /** The `update_deal_status` calls of one request, in order: one result per call; only the
      deal's own row can change, and nothing changes when the deal has no row or the commits fail. */
  function ApplyAll(store: Store, dealId: int, actions: seq<Action>, now: Instant, commits: bool): (h: Handled)
    requires forall i :: 0 <= i < |actions| ==> WellFormedAction(actions[i])
    ensures |h.results| == |actions|
    ensures h.store.Keys == store.Keys
    ensures forall id :: id in store && id != dealId ==> h.store[id] == store[id]
    ensures dealId !in store || !commits ==>
      h.store == store && forall i :: 0 <= i < |h.results| ==> !h.results[i]
    decreases |actions|
  {
    if |actions| == 0 then Handled([], store)
    else
      var u := UpdateDealStatus(store, dealId, actions[0], now, commits);
      var rest := ApplyAll(u.store, dealId, actions[1..], now, commits);
      Handled([u.ok] + rest.results, rest.store)
  }

  /** A status route end to end: the calls it makes and their effect on the table. */
  function HandleRequest(store: Store, dealId: nat, req: Request, now: Instant, commits: bool): (h: Handled)
    ensures |h.results| == |RouteActions(req, dealId)|
    ensures h.store.Keys == store.Keys
    ensures forall id :: id in store && id != dealId ==> h.store[id] == store[id]
    ensures dealId !in store || !commits ==>
      h.store == store && forall i :: 0 <= i < |h.results| ==> !h.results[i]
  {
    ApplyAll(store, dealId, RouteActions(req, dealId), now, commits)
  }

  /** The two report routes send action names the transition function does not handle: they
      report success whenever the row exists and the commit goes through, and change nothing. */
  lemma ReportRoutesChangeNothing(store: Store, dealId: nat, req: Request, now: Instant, commits: bool)
    requires req.ReportAcceptanceResult? || req.ReportDefectResult?
    ensures HandleRequest(store, dealId, req, now, commits) == Handled([dealId in store && commits], store)
  {
    var actions := RouteActions(req, dealId);
    assert |actions| == 1 && actions[0].Other?;
    var u := UpdateDealStatus(store, dealId, actions[0], now, commits);
    assert u == Update(dealId in store && commits, store);
    assert actions[1..] == [];
    assert ApplyAll(store, dealId, actions, now, commits) == Handled([u.ok] + [], store);
  }

  /** Sending both files completes the deal whatever its defect flag, because the signed act is
      applied first. */
  lemma UploadBothCompletes(store: Store, dealId: nat, now: Instant)
    requires dealId in store
    ensures var h := HandleRequest(store, dealId, UploadFinalDocs(true, true), now, true);
      h.store[dealId].status == Completed
  {
    var actions := RouteActions(UploadFinalDocs(true, true), dealId);
    var u1 := UpdateDealStatus(store, dealId, actions[0], now, true);
    var u2 := UpdateDealStatus(u1.store, dealId, actions[1], now, true);
    assert actions[1..][1..] == [];
    assert ApplyAll(u1.store, dealId, actions[1..], now, true).store == u2.store;
    assert HandleRequest(store, dealId, UploadFinalDocs(true, true), now, true).store == u2.store;
  }
}

=== FILE: status_machine.dfy ===
/** `update_deal_status`: the workflow state machine over one `DealStatus` row. */
module StatusMachine {
  import opened Wrappers
  import opened Models

  /** The payload of `process_acceptance`: the two optional flags read from the request mapping. */
  datatype AcceptanceReport = AcceptanceReport(isSigned: Option<bool>, hasDefects: Option<bool>)

  /** The action codes the transition function understands, each with its payload, plus
      `Other` for every name it does not handle. A `ProcessAcceptance` payload of `None`
      stands for a payload that is not a mapping (reading a flag from it raises);
      a path payload of `None` stands for the default `data=None`. */
  datatype Action =
    | MarkDelivered
    | MarkArrived
    | AcceptanceActDownloaded
    | ProcessAcceptance(payload: Option<AcceptanceReport>)
    | UploadSignedAct(path: Option<string>)
    | UploadDefectList(path: Option<string>)
    | ActDownloaded
    | ActUploaded(path: Option<string>)
    | Other(name: string)

  /** The action code the callers pass. */
  function ActionName(a: Action): string {
    match a
    case MarkDelivered => "mark_delivered"
    case MarkArrived => "mark_arrived"
    case AcceptanceActDownloaded => "acceptance_act_downloaded"
    case ProcessAcceptance(_) => "process_acceptance"
    case UploadSignedAct(_) => "upload_signed_act"
    case UploadDefectList(_) => "upload_defect_list"
    case ActDownloaded => "act_downloaded"
    case ActUploaded(_) => "act_uploaded"
    case Other(name) => name
  }

  /** The action codes with a branch of their own. */
  const HandledNames: set<string> := {
    "mark_delivered", "mark_arrived", "acceptance_act_downloaded", "process_acceptance",
    "upload_signed_act", "upload_defect_list", "act_downloaded", "act_uploaded"
  }

  /** An `Other` action really is one the transition function does not handle. */
  predicate WellFormedAction(a: Action) {
    a.Other? ==> a.name !in HandledNames
  }

  /** Every action with a constructor of its own is called by a handled name, and a well-formed
      action is handled exactly when its name has a branch. */
  lemma ActionNameHandled(a: Action)
    ensures !a.Other? ==> ActionName(a) in HandledNames
    ensures WellFormedAction(a) <==> (ActionName(a) in HandledNames <==> !a.Other?)
  {
  }

  /** Every step of a run is well formed. */
  predicate WellFormedSteps(steps: seq<(Action, Instant)>) {
    forall i :: 0 <= i < |steps| ==> WellFormedAction(steps[i].0)
  }

  /** Python truthiness of a nullable string column: set and non-empty. */
  predicate PathTruthy(p: Option<string>) {
    p.Some? && p.value != ""
  }

  /** Python truthiness of a nullable boolean column: only `True` is truthy. */
  predicate FlagTruthy(b: Option<bool>) {
    b == Some(true)
  }

  /** The columns of a status row, for stating which ones an action may write. */
  datatype Field =
    | GroupKeyCol | StatusCol | DeliveredAtCol | ArrivedAtCol | UnilateralDownloadedAtCol
    | UnilateralUploadedPathCol | AcceptanceDownloadedAtCol | ActSignedCol | DefectFlagCol
    | SignedActPathCol | DefectListPathCol

  /** `s` and `t` are the same row except, possibly, in the columns `fs`. */
  predicate AgreeOutside(s: DealStatus, t: DealStatus, fs: set<Field>) {
    && s.dealId == t.dealId
    && (GroupKeyCol !in fs ==> s.groupKey == t.groupKey)
    && (StatusCol !in fs ==> s.status == t.status)
    && (DeliveredAtCol !in fs ==> s.documentsDeliveredAt == t.documentsDeliveredAt)
    && (ArrivedAtCol !in fs ==> s.clientArrivedAt == t.clientArrivedAt)
    && (UnilateralDownloadedAtCol !in fs ==> s.unilateralActDownloadedAt == t.unilateralActDownloadedAt)
    && (UnilateralUploadedPathCol !in fs ==> s.unilateralActUploadedPath == t.unilateralActUploadedPath)
    && (AcceptanceDownloadedAtCol !in fs ==> s.acceptanceActDownloadedAt == t.acceptanceActDownloadedAt)
    && (ActSignedCol !in fs ==> s.isActSigned == t.isActSigned)
    && (DefectFlagCol !in fs ==> s.hasDefectList == t.hasDefectList)
    && (SignedActPathCol !in fs ==> s.signedActUploadedPath == t.signedActUploadedPath)
    && (DefectListPathCol !in fs ==> s.defectListUploadedPath == t.defectListUploadedPath)
  }

  /** The columns each action may write (the transition table's "effect" column). */
  function Writes(a: Action): set<Field> {
    match a
    case MarkDelivered => {DeliveredAtCol, StatusCol}
    case MarkArrived => {ArrivedAtCol, StatusCol}
    case AcceptanceActDownloaded => {AcceptanceDownloadedAtCol}
    case ProcessAcceptance(_) => {ActSignedCol, DefectFlagCol, StatusCol}
    case UploadSignedAct(_) => {SignedActPathCol, StatusCol}
    case UploadDefectList(_) => {DefectListPathCol, StatusCol}
    case ActDownloaded => {UnilateralDownloadedAtCol}
    case ActUploaded(_) => {UnilateralUploadedPathCol, StatusCol}
    case Other(_) => {}
  }

  /** The status an action moves the row to, judged on the row before the action;
      `None` when the status stays as it is (the transition table's "resulting status" column). */
  function Target(s: DealStatus, a: Action): Option<Status> {
    match a
    case MarkDelivered => Some(PendingArrival)
    case MarkArrived => Some(AcceptancePending)
    case ProcessAcceptance(p) =>
      if p.Some? && p.value.isSigned == Some(false) && p.value.hasDefects == Some(false)
      then Some(UnilateralPending) else None
    case UploadSignedAct(_) => if !FlagTruthy(s.hasDefectList) then Some(Completed) else None
    case UploadDefectList(_) => if PathTruthy(s.signedActUploadedPath) then Some(Completed) else None
    case ActUploaded(_) => Some(Completed)
    case _ => None
  }

  /** The effect of one action on a row; `None` when the branch raises (a `process_acceptance`
      payload that is not a mapping). */
  function Apply(s: DealStatus, a: Action, now: Instant): (r: Option<DealStatus>)
    requires WellFormedAction(a)
    ensures r.None? <==> a.ProcessAcceptance? && a.payload.None?
    ensures r.Some? ==> AgreeOutside(s, r.value, Writes(a))
    ensures r.Some? ==> r.value.status == Target(s, a).GetOr(s.status)
    ensures r.Some? && a.MarkDelivered? ==> r.value.documentsDeliveredAt == Some(now)
    ensures r.Some? && a.MarkArrived? ==> r.value.clientArrivedAt == Some(now)
    ensures r.Some? && a.AcceptanceActDownloaded? ==> r.value.acceptanceActDownloadedAt == Some(now)
    ensures r.Some? && a.ActDownloaded? ==> r.value.unilateralActDownloadedAt == Some(now)
    ensures r.Some? && a.ProcessAcceptance? ==>
      r.value.isActSigned == a.payload.value.isSigned && r.value.hasDefectList == a.payload.value.hasDefects
    ensures r.Some? && a.UploadSignedAct? ==> r.value.signedActUploadedPath == a.path
    ensures r.Some? && a.UploadDefectList? ==> r.value.defectListUploadedPath == a.path
    ensures r.Some? && a.ActUploaded? ==> r.value.unilateralActUploadedPath == a.path
  {
    match a
    case MarkDelivered =>
      Some(s.(documentsDeliveredAt := Some(now), status := PendingArrival))
    case MarkArrived =>
      Some(s.(clientArrivedAt := Some(now), status := AcceptancePending))
    case AcceptanceActDownloaded =>
      Some(s.(acceptanceActDownloadedAt := Some(now)))
    case ProcessAcceptance(payload) =>
      if payload.None? then None
      else
        var t := s.(isActSigned := payload.value.isSigned, hasDefectList := payload.value.hasDefects);
        if payload.value.isSigned == Some(false) && payload.value.hasDefects == Some(false)
        then Some(t.(status := UnilateralPending))
        else Some(t)
    case UploadSignedAct(path) =>
      var t := s.(signedActUploadedPath := path);
      if !FlagTruthy(s.hasDefectList) then Some(t.(status := Completed)) else Some(t)
    case UploadDefectList(path) =>
      var t := s.(defectListUploadedPath := path);
      if PathTruthy(s.signedActUploadedPath) then Some(t.(status := Completed)) else Some(t)
    case ActDownloaded =>
      Some(s.(unilateralActDownloadedAt := Some(now)))
    case ActUploaded(path) =>
      Some(s.(unilateralActUploadedPath := path, status := Completed))
    case Other(_) =>
      Some(s)
  }

  /** The outcome of `update_deal_status`: the boolean it returns and the table after it. */
  datatype Update = Update(ok: bool, store: Store)

  /** `update_deal_status(deal_id, action, data)`. `commits` says whether the commit (and the
      read before it) succeeds; on any failure the session is rolled back. */
  function UpdateDealStatus(store: Store, dealId: int, a: Action, now: Instant, commits: bool): (r: Update)
    requires WellFormedAction(a)
    ensures dealId !in store ==> r == Update(false, store)
    ensures r.ok <==> dealId in store && commits && Apply(store[dealId], a, now).Some?
    ensures !r.ok ==> r.store == store
    ensures r.ok ==> r.store == store[dealId := Apply(store[dealId], a, now).value]
    ensures a.Other? ==> r.store == store && (r.ok <==> dealId in store && commits)
    ensures r.store.Keys == store.Keys
    ensures WellKeyed(store) ==> WellKeyed(r.store)
  {
    if dealId !in store then Update(false, store)
    else
      match Apply(store[dealId], a, now)
      case None => Update(false, store)
      case Some(t) => if commits then Update(true, store[dealId := t]) else Update(false, store)
  }

  /** Applies a sequence of timed actions to one row; an action that raises leaves the row as it
      was. No action touches the deal id or the group. */
  function Run(s: DealStatus, steps: seq<(Action, Instant)>): (r: DealStatus)
    requires WellFormedSteps(steps)
    ensures r.dealId == s.dealId && r.groupKey == s.groupKey
    ensures |steps| == 0 ==> r == s
    decreases |steps|
  {
    if |steps| == 0 then s
    else
      var next := Apply(s, steps[0].0, steps[0].1).GetOr(s);
      Run(next, steps[1..])
  }

  /** One of the five statuses the code writes. */
  predicate NamedStatus(st: Status) {
    !st.Legacy?
  }

  /** The row invariant the transitions keep: a named status, and the waiting statuses only
      with the timestamp that started the wait. */
  predicate Consistent(s: DealStatus) {
    && NamedStatus(s.status)
    && (s.status == PendingArrival ==> s.documentsDeliveredAt.Some?)
    && (s.status == AcceptancePending ==> s.clientArrivedAt.Some?)
  }

  lemma ApplyKeepsConsistent(s: DealStatus, a: Action, now: Instant)
    requires WellFormedAction(a)
    requires Consistent(s)
    ensures Consistent(Apply(s, a, now).GetOr(s))
  {
  }

  /** Reachability: from a row the classification creates, no sequence of actions reaches a
      status outside the five named ones, nor a waiting status without its timestamp. */
  lemma {:induction false} RunKeepsConsistent(s: DealStatus, steps: seq<(Action, Instant)>)
    requires WellFormedSteps(steps)
    requires Consistent(s)
    ensures Consistent(Run(s, steps))
    decreases |steps|
  {
    if |steps| > 0 {
      ApplyKeepsConsistent(s, steps[0].0, steps[0].1);
      RunKeepsConsistent(Apply(s, steps[0].0, steps[0].1).GetOr(s), steps[1..]);
    }
  }

  lemma FreshRowReachesOnlyNamedStatuses(dealId: int, k: GroupKey, steps: seq<(Action, Instant)>)
    requires WellFormedSteps(steps)
    ensures NamedStatus(Run(NewDealStatus(dealId, Some(k)), steps).status)
  {
    RunKeepsConsistent(NewDealStatus(dealId, Some(k)), steps);
  }

  /** An action whose upload path, if it carries one, is a real (non-empty) path. */
  predicate CarriesRealPath(a: Action) {
    (a.UploadSignedAct? || a.UploadDefectList? || a.ActUploaded?) ==> PathTruthy(a.path)
  }

  /** With real paths, a completed row always holds an uploaded act: the unilateral one or
      the signed acceptance act. */
  predicate CompletedWithAct(s: DealStatus) {
    s.status == Completed ==> PathTruthy(s.unilateralActUploadedPath) || PathTruthy(s.signedActUploadedPath)
  }

  lemma {:induction false} RunCompletesOnlyWithAct(s: DealStatus, steps: seq<(Action, Instant)>)
    requires WellFormedSteps(steps)
    requires CompletedWithAct(s)
    requires forall i :: 0 <= i < |steps| ==> CarriesRealPath(steps[i].0)
    ensures CompletedWithAct(Run(s, steps))
    decreases |steps|
  {
    if |steps| > 0 {
      var next := Apply(s, steps[0].0, steps[0].1).GetOr(s);
      assert CompletedWithAct(next);
      assert forall i :: 0 <= i < |steps[1..]| ==> CarriesRealPath(steps[1..][i].0) by {
        forall i | 0 <= i < |steps[1..]| ensures CarriesRealPath(steps[1..][i].0) {
          assert steps[1..][i] == steps[i + 1];
        }
      }
      RunCompletesOnlyWithAct(next, steps[1..]);
    }
  }

  /** With the defect flag set, uploading the signed act and then the defect list completes the deal. */
  lemma SignedThenDefectListCompletes(s: DealStatus, signed: string, defects: Option<string>, t1: Instant, t2: Instant)
    requires signed != ""
    ensures Run(s, [(UploadSignedAct(Some(signed)), t1), (UploadDefectList(defects), t2)]).status == Completed
  {
    var steps := [(UploadSignedAct(Some(signed)), t1), (UploadDefectList(defects), t2)];
    var s1 := Apply(s, UploadSignedAct(Some(signed)), t1).value;
    assert Run(s, steps) == Run(s1, steps[1..]);
    assert steps[1..] == [(UploadDefectList(defects), t2)];
    assert Run(s1, steps[1..]) == Run(Apply(s1, UploadDefectList(defects), t2).value, []);
  }

  /** ... but in the other order it does not: the signed act sees the defect flag and does
      not complete, and the defect list came before any signed act. */
  lemma DefectListThenSignedStalls(s: DealStatus, signed: string, defects: Option<string>, t1: Instant, t2: Instant)
    requires FlagTruthy(s.hasDefectList) && !PathTruthy(s.signedActUploadedPath)
    ensures Run(s, [(UploadDefectList(defects), t1), (UploadSignedAct(Some(signed)), t2)]).status == s.status
  {
    var steps := [(UploadDefectList(defects), t1), (UploadSignedAct(Some(signed)), t2)];
    var s1 := Apply(s, UploadDefectList(defects), t1).value;
    assert Run(s, steps) == Run(s1, steps[1..]);
    assert steps[1..] == [(UploadSignedAct(Some(signed)), t2)];
    assert Run(s1, steps[1..]) == Run(Apply(s1, UploadSignedAct(Some(signed)), t2).value, []);
  }

  /** A refused acceptance with no defects leads to the unilateral branch; uploading the
      unilateral act then completes the deal. */
  lemma UnilateralScenario(s: DealStatus, path: string, t1: Instant, t2: Instant)
    requires s.status == AcceptancePending
    ensures
      var r := Apply(s, ProcessAcceptance(Some(AcceptanceReport(Some(false), Some(false)))), t1);
      && r.Some? && r.value.status == UnilateralPending
      && Apply(r.value, ActUploaded(Some(path)), t2).value.status == Completed
  {
  }
}

=== FILE: wrappers.dfy ===
/** The optional value used for every nullable column and every "maybe absent" input. */
module Wrappers {

  /** `None` stands for Python's `None` / SQL `NULL`. */
  datatype Option<+T> = None | Some(value: T) {

    /** Returns the value in `Some`, or `default` when `None`. */
    function GetOr(default: T): T {
      match this
      case Some(v) => v
      case None => default
    }
  }
}
